=== FILE: README.md ===
# Dual spectrum analyser viewer — a Dafny model of its core

SpectrumAnalyzer is a desktop viewer for two networked spectrum analysers
(SA1 and SA2) that speak SCPI over VISA. For each analyser the window keeps:

- a VISA handle;
- a continuous-sweep flag;
- a peak-hold ("max hold") trace.

This project models the core of the window class `DualSAViewer` in
`main.py`:

- connecting to and disconnecting from an analyser, and the liveness check;
- resolving a panel's frequency entries (start/stop or centre/span, with a
  decimal comma allowed);
- the configuration writes sent before a sweep;
- a single triggered sweep and its wait;
- reading and decoding a trace. A reply is an IEEE 488.2 definite-length
  block (section 8.7.9 of IEEE 488.2) or a bare list, and the frequency axis
  is rebuilt with `linspace`;
- the peak hold and its reset;
- the continuous-sweep loop and its toggle;
- the network reset and the shutdown.

How the source's parts map onto Dafny:

- **Panels.** The SA1 and SA2 copies of each handler are the same code on
  different fields. Both are one `Session` class, instantiated twice inside
  the `Viewer` class.
- **Instrument.** An `Instrument` logs every write it is asked to make.
  Each write, read and close consumes one scripted `Outcome`: the operation
  completes (a read returns the scripted text) or raises. Every transport
  failure is therefore an input, and the log shows which SCPI commands
  went out.
- **Continuous-loop flag.** The UI thread may clear the flag while the
  loop runs. The model makes this an input: `flagAt(k)` is the flag value
  the loop reads at its `k`-th check.
- **Python semantics.** Python's `str.strip`, `split`, `replace`,
  slicing, `int()` and `float()` are modelled explicitly on `seq<char>`.
  Numbers are Dafny `real`s.

Modules:

| file | module | what it holds |
|---|---|---|
| results.dfy | `Results` | `Option`, `Result` and the exception kinds |
| text.dfy | `Text` | Python string operations and number parsing |
| scpi.dfy | `Scpi` | SCPI commands, the scripted `Instrument` and the resource manager |
| trace.dfy | `TraceDecoder` | decoding of the trace reply and the frequency axis |
| peak_hold.dfy | `PeakHold` | the peak-hold update as a function, with its properties |
| freq_range.dfy | `FreqRange` | resolving the frequency entries of a panel |
| configure.dfy | `SweepConfig` | the configuration writes |
| sweep.dfy | `Sweep` | the single sweep, the trace exchange and one iteration of the continuous loop |
| session.dfy | `Dual` | the `Session` and `Viewer` classes |

## Model

| member | source | states |
|---|---|---|
| Text.Strip | main.py:1453 | the result has no blank at either end; it is empty exactly when the input is blank; a string with no blank at its ends is unchanged |
| Text.StripExact | main.py:1453 | the result is the input with its leading and trailing blanks cut off: a slice of the input with only blanks before it and only blanks after it |
| Text.StripKeeps | main.py:1453 | every character of the input that is not blank survives stripping |
| Text.StripFirst | main.py:1453-1455 | a text that does not start with a blank keeps its first character, so stripping does not change whether it starts with `#` |
| Text.StripBlankSuffix | main.py:1453 | stripping a non-blank-ended text followed by a line terminator gives the text back |
| Text.PySlice | main.py:1457 | a slice is never longer than the string; with both bounds inside the string it is the ordinary subsequence |
| Text.PySliceClamps | main.py:1457-1460 | an upper bound past the end stops at the end; a negative upper bound counts from the end; a range that is empty once both bounds are normalised (reversed, starting at or past the end, or ending before it starts) gives the empty string |
| Text.ReplaceAbsent | main.py:1586 | replacing a character that does not occur changes nothing |
| Text.ReplaceRemoves | main.py:1586 | after replacing a character by text without it, the character no longer occurs |
| Text.ReplaceAppend | main.py:1400 | replacement distributes over concatenation |
| Text.Split | main.py:1464 | `split` yields at least one piece and no piece contains the separator |
| Text.SplitJoin | main.py:1464 | splitting a join of separator-free pieces gives the pieces back |
| Text.JoinSplit | main.py:1464 | joining the pieces of a split gives the original text back |
| Text.NatText | main.py:1458 | the decimal text of a natural number is non-empty, made of digits and denotes the number |
| Text.NatTextLength | main.py:1456-1458 | a number below 10^k has at most k digits, so a one-digit width always fits |
| Text.ParseInt | main.py:1439 | `int()` of a blank text fails |
| Text.ParseIntDigits | main.py:1439 | `int()` of a digit string is its decimal value |
| Text.ParseFloat | main.py:1443 | `float()` of a blank text fails |
| Text.ParseFloatDigits | main.py:1443 | `float()` of a digit string is its decimal value |
| Text.ParseFloatIntText | main.py:1443 | `float()` of any integer's decimal text is that integer |
| Text.ParseFloatExponent | main.py:1400 | `float()` of `<digits>e<x>` is the digits scaled by 10^x |
| Text.ParseFloatDecimal | main.py:1586 | `float()` of `<digits>.<digits>` is the decimal number they write |
| Text.ParseFloatRejectsComma | main.py:1586 | `float()` rejects any text that contains a comma |
| Text.ParseFloatRejectsHash | main.py:1455 | `float()` rejects any text that starts with `#`, so no reply that is a bare list of values is taken for a block |
| Scpi.FirstRaise | main.py:1396-1422 | how many of a run of transport operations complete before the first that raises |
| Scpi.Attempted | main.py:1396-1422 | operations in one try block are attempted up to and including the first that raises |
| Scpi.InitsAppendInit | main.py:1540 | an `:INIT` write adds one to the count of triggered sweeps |
| Scpi.InitsAppendOther | main.py:1541 | any other write leaves the count unchanged |
| Scpi.InitsAppend | main.py:1537 | the number of `:INIT` writes in a log adds up over concatenation |
| Scpi.Instrument.Write | main.py:1398 | a write is logged and advances the script by one; it completes exactly when the script says so |
| Scpi.Instrument.Read | main.py:1439 | a read returns the scripted text when it completes |
| Scpi.Instrument.Close | main.py:1160 | a close that raises leaves the handle open |
| TraceDecoder.DataRegion | main.py:1453-1462 | the data region is never longer than the reply; without a leading `#` it is the whole stripped reply |
| TraceDecoder.DataRegionOfBlock | main.py:1455-1460 | after `#` and the width digit N, the next N characters are the byte count and exactly that many characters follow as data, fewer only when the reply ends first |
| TraceDecoder.BlockRegionOf | main.py:1455-1458 | a block's data is read with the byte count taken from the N characters after the width digit N |
| TraceDecoder.BlockRegionDigit | main.py:1456 | the digit after `#` is read as the width of the byte count |
| TraceDecoder.DataAfterOf | main.py:1459-1460 | with a byte count of L, the data is the next L characters, or all that remain when fewer do |
| TraceDecoder.DataRegionErrors | main.py:1455-1458 | a lone `#` is an IndexError; a non-digit or zero width, or a byte count that is not a number, is a ValueError |
| TraceDecoder.NonBlank | main.py:1464 | only pieces that are not blank are kept |
| TraceDecoder.NonBlankOne | main.py:1464 | a single piece is kept exactly when it is not blank |
| TraceDecoder.NonBlankAppend | main.py:1464 | filtering a concatenation filters each part and keeps the order of the pieces |
| TraceDecoder.ParseValuesSpec | main.py:1465 | the values parse exactly when every piece parses, one value per piece, in order |
| TraceDecoder.ParseValuesOf | main.py:1465 | pieces that each read as the matching value read as those values |
| TraceDecoder.AllPresent | main.py:1465 | a list of optional values is present exactly when each entry is, and then holds each entry's value in order |
| TraceDecoder.ParsedTokensAt | main.py:1465 | the k-th parsed piece is `float()` of the k-th piece |
| TraceDecoder.Linspace | main.py:1470 | n points; the first is start and, with two or more points, the last is stop; one point is just start |
| TraceDecoder.LinspaceSpacing | main.py:1470 | consecutive points are (stop − start)/(n − 1) apart, so the axis increases when start < stop |
| TraceDecoder.DecodeTrace | main.py:1453-1471 | a reply decodes exactly when its region and every piece parse; the axis is `linspace(start, stop, count)` over exactly as many points as values; a count other than the queried one is only flagged |
| TraceDecoder.EncodeBlock | main.py:1455-1460 | a block starts with `#` followed by its header |
| TraceDecoder.HeaderRoundTrip | main.py:1455-1460 | a payload framed as a definite-length block, with any line terminator after it, decodes back to the payload |
| TraceDecoder.TokensOfJoin | main.py:1464 | the pieces of a comma-joined list of non-blank pieces are those pieces |
| TraceDecoder.TokensOfEmpty | main.py:1464 | an empty data region yields no values |
| TraceDecoder.ValuesRoundTrip | main.py:1464-1465 | any values written as comma-separated texts that `float()` reads as those values are read back unchanged, the empty list included |
| TraceDecoder.TraceRoundTrip | main.py:1453-1471 | values written as texts that `float()` accepts and sent as a block, with any line terminator after it, decode to those values on `linspace(start, stop, count)`, flagged exactly when the count differs from the point count |
| TraceDecoder.BareRegion | main.py:1461-1462 | a bare list is its own data region |
| TraceDecoder.BareRoundTrip | main.py:1461-1470 | values written as texts that `float()` accepts and sent as a bare list decode to those values on `linspace(start, stop, count)` |
| TraceDecoder.BareAgreesWithBlock | main.py:1455-1462 | a bare list of such texts and the same list in a block decode to the same trace |
| TraceDecoder.IntegerAmplitudes | main.py:1465 | integers written in decimal are texts that `float()` reads as those integers, and their comma-joined list has no blank at either end |
| TraceDecoder.IntegerTraceRoundTrip | main.py:1453-1471 | integer amplitudes sent as a block decode to those amplitudes on `linspace(start, stop, count)` |
| PeakHold.ElementwiseMax | main.py:1578 | `np.maximum`: each element is at least both inputs and equals one of them |
| PeakHold.Update | main.py:1574-1578 | with nothing held or a held trace of another length, the new trace is held as it is; otherwise the axis is kept and each held value becomes the larger of the held and the new value |
| PeakHold.UpdateConsistent | main.py:1574-1578 | held axis and held values stay the same length |
| PeakHold.UpdateDominates | main.py:1578 | after an update each held value is at least the new trace's value |
| PeakHold.UpdateIdempotent | main.py:1574-1578 | plotting the same trace twice holds what plotting it once holds |
| PeakHold.RunningMaximum | main.py:1574-1578 | after a reset, a run of same-length traces holds the first trace's axis and, at each point, the maximum over all of them |
| PeakHold.LengthChangeRestarts | main.py:1574-1576 | a trace of another length discards everything held |
| PeakHold.HoldExamples | main.py:1574-1578 | [1,2,3] then [0,5,1] holds [1,5,3]; after a reset [9] holds [9] |
| FreqRange.ResolveRange | main.py:1583-1594 | start/stop mode passes the two entries through; centre/span mode gives stop − start = span and midpoint = centre; the result fails with a ValueError exactly when an entry used does not parse |
| FreqRange.ReadEntryNormalised | main.py:1586-1593 | reading an entry already normalised from comma to point gives the same value |
| FreqRange.ReadEntryDigits | main.py:1592 | a digit string reads as its value |
| FreqRange.DecimalComma | main.py:1586-1593 | `12,5` reads as `12.5`, although `float()` alone would reject it |
| FreqRange.StartStopDigits | main.py:1591-1594 | start and stop typed as digits resolve to their values |
| FreqRange.CenterSpanDigits | main.py:1585-1590 | centre and span typed as digits resolve to centre ∓ span/2 |
| FreqRange.EmptyRangeAccepted | main.py:1591-1594 | start equal to stop is not rejected |
| FreqRange.CenterSpanExample | main.py:1585-1590 | centre 1000 and span 2000 give the range 0 to 2000 |
| SweepConfig.ResolutionPlain | main.py:1397-1401 | `auto` switches automatic resolution bandwidth on; plain digits are written as that many Hz |
| SweepConfig.ResolutionKilo | main.py:1400-1401 | `<digits>k` is written as the digits × 10^3 Hz |
| SweepConfig.ResolutionMega | main.py:1400-1401 | `<digits>M` is written as the digits × 10^6 Hz |
| SweepConfig.ConfigWrites | main.py:1396-1420 | nothing when the resolution entry fails to parse; only the resolution write when the video entry fails; otherwise the nine writes in order: the frequencies in Hz (MHz × 10^6), with centre the midpoint and span the difference, then points, video bandwidth, positive-peak detector and ASCII trace format |
| SweepConfig.ConfigWritesNoInit | main.py:1396-1420 | no configuration write starts a sweep |
| SweepConfig.BadEntriesWriteNoFrequency | main.py:1400-1403 | a bad bandwidth entry stops the configuration before any frequency is written |
| SweepConfig.ScaleKiloMega | main.py:1400 | scaling by 10^3 and 10^6 is multiplying by 1000 and 1000000 |
| SweepConfig.BandwidthPlain | main.py:1400 | a bandwidth entry of plain digits is that many Hz |
| SweepConfig.BandwidthKilo | main.py:1400 | `<digits>k` is the digits × 10^3 Hz |
| SweepConfig.BandwidthMega | main.py:1400 | `<digits>M` is the digits × 10^6 Hz |
| SweepConfig.WriteAll | main.py:1396-1422 | the writes go out in order up to and including the first that raises; the rest are skipped and nothing propagates |
| SweepConfig.Configure | main.py:1390-1422 | the log grows by exactly the attempted prefix of the planned writes, and no sweep is triggered |
| Sweep.SettleWait | main.py:1434 | the wait is at least 1.5 s and at least the sweep time times the factor, and equals one of the two |
| Sweep.WaitCoversSweep | main.py:1434 | the wait covers any readable, non-negative sweep time |
| Sweep.UnreadableSweepTime | main.py:1432-1434 | a sweep time that cannot be read or parsed gives waits of 1.65 s and 1.8 s |
| Sweep.Query | main.py:1279-1288 | a query logs its one write and returns the scripted reply |
| Sweep.SingleSweepWait | main.py:1424-1434 | the single sweep fails exactly when one of its two trigger writes raises; otherwise its wait is at least 1.5 s |
| Sweep.SingleSweep | main.py:1424-1434 | continuous mode off, trigger, sweep-time query, in that order; a failed trigger write propagates and a failed sweep-time exchange does not |
| Sweep.SingleSweepInits | main.py:1425-1429 | a completed single sweep triggers exactly one sweep |
| Sweep.TraceQueriesNoInit | main.py:1437-1451 | reading a trace triggers no sweep |
| Sweep.TraceExchange | main.py:1436-1471 | a trace read succeeds only after all nine of its transport operations complete, and yields an axis as long as the values |
| Sweep.StartExchange | main.py:1441-1471 | the exchange after the point count needs seven completed operations |
| Sweep.StopExchange | main.py:1445-1471 | the exchange after the start frequency needs five completed operations |
| Sweep.DataExchange | main.py:1449-1471 | the data exchange needs three completed operations |
| Sweep.TraceExchangeOfReplies | main.py:1436-1471 | replies giving N points, start and stop frequencies that parse, and a block of texts `float()` reads as the values yield those values on `linspace(start, stop, count)`, flagged exactly when the count differs from N |
| Sweep.StartOfReplies | main.py:1441-1471 | after the point count, replies giving start and stop frequencies that parse and a block of value texts yield those values on `linspace(start, stop, count)` |
| Sweep.StopOfReplies | main.py:1445-1471 | after the start frequency, a stop frequency that parses and a block of value texts yield those values on `linspace(start, stop, count)` |
| Sweep.DataOfReplies | main.py:1449-1471 | after the stop frequency, a block of value texts as the data reply yields those values on `linspace(start, stop, count)` |
| Sweep.BadPointCount | main.py:1437-1439 | a point-count query that raises ends the read with a transport error, and a reply that is not an integer with a ValueError |
| Sweep.BadStart | main.py:1441-1443 | likewise for the start-frequency query, whose reply must be a float |
| Sweep.BadStop | main.py:1445-1447 | likewise for the stop-frequency query |
| Sweep.ReadTrace | main.py:1436-1471 | reading a trace is the trace exchange at the current position; its writes are a non-empty prefix of the five trace queries, all five when it succeeds |
| Sweep.ReadRange | main.py:1441-1471 | the rest of the read after the point count |
| Sweep.ReadStop | main.py:1445-1471 | the rest of the read after the start frequency |
| Sweep.ReadData | main.py:1449-1471 | the format and data exchange of the read |
| Sweep.TraceReadNoInit | main.py:1437-1451 | any prefix of the trace queries leaves the trigger count unchanged |
| Sweep.LoopIteration | main.py:1536-1549 | an iteration fails when the trigger or sweep-time write raises; otherwise it is the trace read three operations on |
| Sweep.LoopSweep | main.py:1536-1549 | one iteration: trigger, sweep-time query whose read may fail without ending the loop, a wait of at least 1.5 s, then the trace read; exactly one sweep is triggered |
| Sweep.LoopTrigger | main.py:1540-1547 | the trigger and sweep-time writes go out in order, a raise in either failing the iteration; a sweep time that cannot be read still gives a wait of at least 1.5 s; exactly one sweep is triggered |
| Sweep.LoopStep | main.py:1536-1549 | an iteration yields a trace exactly when `LoopIteration` at the current position succeeds, and then that trace; it advances the script and triggers exactly one sweep |
| Sweep.SweepAndRead | main.py:1493-1494 | the result is exactly `SweepExchange`: a raising trigger write is the outcome and skips the read, otherwise the outcome is the trace exchange that starts after the sweep-time exchange; a completed run's trace comes from the last nine script entries, it triggered exactly one sweep and ended with the trace queries |
| Sweep.ConfiguredSweep | main.py:1492-1494 | the configuration writes attempted before the first that raised go out in order, as `Configure` sends them; the result is exactly `SweepExchange` at the position after them (a trigger failure, or the trace exchange); a completed run's trace comes from the last nine script entries it consumed, it triggered exactly one sweep and ended with the trace queries |
| Dual.Session.UpdatePlot | main.py:1571-1578 | the panel's peak-hold fields become `Update` of their old value and the new trace |
| Dual.Session.ApplyPosted | main.py:1550 | the posted plot updates leave the peak hold folded over the posted traces in order |
| Dual.Session.ResetPeak | main.py:1596-1598 | both peak-hold fields are cleared |
| Dual.Session.CheckConnection | main.py:1278-1288 | false when not connected; otherwise `*OPC?` is written, and the result is true exactly when the reply arrives and contains `1` |
| Dual.Session.Connect | main.py:1302-1344 | an empty address changes nothing; a connected panel is disconnected: flag off, handle closed and forgotten even if the close raises, peak cleared; otherwise the opened handle gets a 120000 ms timeout and answers `*IDN?`, and the panel keeps the handle with the stripped reply or forgets it on any failure |
| Dual.SweepSettings | main.py:1484-1494 | entries that do not parse are a ValueError with nothing written and nothing consumed; otherwise the configuration writes of the entries go out as `Configure` sends them and the result is exactly the sweep and read that follow them; a completed run's trace comes from the last nine script entries, it triggered exactly one sweep and ended with the trace queries |
| Dual.Session.PlotIfRead | main.py:1496 | a trace that was read is folded into the peak hold by `Update`; otherwise the peak hold is unchanged |
| Dual.Session.SweepOnce | main.py:1478-1506 | nothing when not connected; bad entries are a ValueError before anything is written; otherwise the configuration writes go out as `Configure` sends them and the result is exactly the sweep and read that follow them, whether it failed or not; a completed sweep's trace comes from the last nine script entries, it triggered exactly one sweep, ended with the trace queries and is folded into the peak hold, and any other outcome leaves the peak hold unchanged |
| Dual.Session.RunLoop | main.py:1535-1556 | the loop runs while the flag it reads is set; every posted trace comes from an iteration that found the flag set; it ends when the flag is found cleared or an iteration raises; one sweep is triggered per posted trace, plus one for a failed iteration |
| Dual.PrepareLoop | main.py:1531-1532 | the log grows by the attempted prefix of the planned configuration writes and then continuous mode off, which is attempted whether or not the configuration raised; the set-up succeeds exactly when that last write completes |
| Dual.Session.ConfiguredLoop | main.py:1530-1558 | the log starts with the attempted configuration writes followed by continuous mode off; the run fails before the loop exactly when that write raises, and then posts nothing; the timeout is restored afterwards |
| Dual.Session.SettingsLoop | main.py:1524-1537 | entries that do not parse end the run before the loop with nothing written; otherwise the configuration writes of the entries go out as `Configure` sends them, then continuous mode off, and the run fails before the loop exactly when that write raises; the timeout is restored afterwards |
| Dual.Session.StartContinuous | main.py:1519-1566 | nothing unless the flag is set and the panel connected; otherwise bad entries write only continuous mode off, and entries that parse send their configuration writes and continuous mode off first, failing before the loop exactly when that write raises; on every path the last write is continuous mode off, the flag ends cleared and the timeout is back to its old value |
| Dual.Session.ToggleContinuous | main.py:1508-1517 | refused when not connected; flips the flag; turning it off only requests a stop; turning it on with entries that parse sends the configuration writes and continuous mode off first, runs the loop exactly when that write completes, and folds the loop's traces into the peak hold |
| Dual.Viewer.constructor | main.py:862-872 | both panels start disconnected, with the flag off and nothing held |
| Dual.Viewer.ConnectPanel | main.py:1302-1388 | connecting one panel leaves the other panel and its handle untouched |
| Dual.Viewer.TogglePanel | main.py:1508-1517 | toggling one panel leaves the other panel and its handle untouched |
| Dual.Viewer.ResetNetworkAsWritten | main.py:1151-1189 | both flags off and both peak holds cleared; a handle or resource manager whose close raises stays attached; the two panels still never share a handle |
| Dual.Viewer.ResetNetwork | main.py:1151-1189 | the reset as intended: every handle and the resource manager are forgotten, each close having been attempted |
| Dual.Viewer.ReconnectAfterFailedReset | main.py:1158-1163 | after a reset whose close of SA1's handle raised, the next SA1 connect only disconnects; the two panels still never share a handle |
| Dual.Viewer.ReconnectAfterReset | main.py:1151-1189 | after the corrected reset, the next SA1 connect always tries to connect; the two panels still never share a handle |
| Dual.Viewer.OnClosing | main.py:1206-1234 | both flags off; every handle and the resource manager are closed, a raise ignored, and forgotten; the two panels still never share a handle |

## Left out

- Threads and Tk's `after`: handlers that run on a worker thread run to completion. A plot update they post runs after the handler, in posting order (`ApplyPosted`). No reset or other click can interleave.
- The loop's re-check of `inst1 is not None`: only another thread can clear the handle mid-loop, and that is not modelled. The loop keeps the handle it started with.
- Sleeps: the waits are computed (`SettleWait`) but no time passes.
- VISA itself and `_get_rm` (main.py:1236-1276), with its choice of backend: the handle that `open_resource` returns is a parameter of `Connect`. It is null when the resource manager or the open raised.
- The text of numeric SCPI arguments: a command carries its value, not Python's `str()` of a float.
- Floating point: all numbers are exact reals. This covers `np.linspace` rounding and `MHz * 1e6`.
- Python's `float()` and `int()` accept only ASCII signs, digits, one point and an `e`/`E` exponent. Underscores, `inf`, `nan` and non-ASCII digits are left out.
- Plot drawing, markers, panel messages, dialogs, the help window and the export functions: UI only.
- `Dual.Session.RunLoop`, `Dual.Session.StartContinuous` and `Dual.Session.ToggleContinuous`: they state how many sweeps ran and what every posted trace shares (the flag was set, and axis and values match). They do not state which scripted reply each trace came from. `Sweep.LoopStep` and `Sweep.LoopSweep` state that per iteration.
- `Dual.Session.ConfiguredLoop`: the 30000 ms timeout during the loop is set but nothing in the model depends on it. Only its restoration is stated.
- `Dual.Session.Connect`: a handle whose `*IDN?` exchange raises is forgotten without being closed, as in the source. The model states that it stays open but does not track the leak further.
- The `DualSAViewer` constructor's widgets: `Viewer.constructor` only sets the session state.
- The duplicate first `reset_peak1` (main.py:1473-1476): it is shadowed by the later definition at 1596, which is the one modelled.
- `_get_freq_range_for_panel` does not reject a start frequency at or above the stop frequency (main.py:1591-1594), and neither does the model (`FreqRange.EmptyRangeAccepted`).
- All of `_configure_sa`'s writes share one try block (main.py:1396-1422), so a bad bandwidth entry, or a write that raises, skips every later write (`SweepConfig.ConfigWrites`, `SweepConfig.BadEntriesWriteNoFrequency`).
- `Dual.Session.RunLoop`: it always ends, because every iteration consumes entries of the finite script and an exhausted script raises. The source's loop can run for ever while the flag stays set and the analyser keeps answering; the model covers every finite prefix of such a run.
- `Text.Strip`: only ASCII whitespace (space, tab, line end, vertical tab, form feed, carriage return and 0x1c-0x1f) is stripped. Python's `str.strip` also strips Unicode spaces.
- `Dual.Viewer.rm`: `connect1` and `connect2` cache the resource manager through `_get_rm` (main.py:1247-1276, 1324), which is not part of this model, so no modelled operation sets the field. The reset and the shutdown handle whatever value it holds.
- "Triggers exactly one sweep" counts the `:INIT` writes that were attempted, as the write log records them; whether the analyser acted on a write that raised is not modelled.

## Findings

| source | as written | input that shows it | evidently intended | confidence | as-written member | corrected member |
|---|---|---|---|---|---|---|
| main.py:1158-1177 | `_reset_network` sets `inst1 = None` (and likewise `inst2`, `rm`) inside the try after `close()`, so a close that raises skips it and the handle stays attached while the panel shows "ready to reconnect" | SA1 connected, and its `close()` raises during the reset; the next click on SA1's connect button then only disconnects | forget every handle and the resource manager whatever the close did, as `_on_closing` and `connect1` do | not executed | Dual.Viewer.ReconnectAfterFailedReset | Dual.Viewer.ResetNetwork |

=== FILE: configure.dfy ===
/** Programming an analyser for one sweep: resolution bandwidth, the
    frequency range given both as start/stop and as centre/span, the number
    of points, video bandwidth, the positive-peak detector and the ASCII
    trace format. A failure stops the configuration where it happened and is
    swallowed. */
module SweepConfig {
  import opened Results
  import opened Text
  import opened Scpi

  /** A bandwidth menu entry read as Hz: `k` stands for `e3` and `M` for
      `e6`, so `10k` is 10000 and `1M` is 1000000. */
  function ParseBandwidth(bw: string): Option<real> {
    ParseFloat(Replace(Replace(bw, 'k', "e3"), 'M', "e6"))
  }

  /** The resolution-bandwidth write for a menu entry: the automatic
      setting for `auto`, otherwise the entry in Hz, and nothing when the
      entry does not parse. */
  function ResolutionWrite(bwRes: string): Option<Command> {
    if bwRes == "auto" then Some(BandResAuto)
    else match ParseBandwidth(bwRes)
      case None => None
      case Some(hz) => Some(BandRes(hz))
  }

  /** The writes of one configuration, in order, given the resolution write
      and the video bandwidth as parsed: everything up to the first entry
      that did not parse. Which of them reach the instrument also depends on
      which write raises first. */
  function ConfigWrites(startMhz: real, stopMhz: real, points: int,
                        res: Option<Command>, vid: Option<real>): (w: seq<Command>)
    ensures |w| == 0 <==> res.None?
    ensures |w| == 1 <==> res.Some? && vid.None?
    ensures |w| == 9 <==> res.Some? && vid.Some?
    ensures |w| >= 1 ==> w[0] == res.value
    ensures |w| == 9 ==>
      w[1] == FreqStart(startMhz * 1000000.0) && w[2] == FreqStop(stopMhz * 1000000.0)
      && w[3].FreqCenter? && 2.0 * w[3].hz == w[1].hz + w[2].hz
      && w[4].FreqSpan? && w[4].hz == w[2].hz - w[1].hz
      && w[5] == SweepPoints(points)
      && w[6] == BandVid(vid.value)
      && w[7] == DetectorPos && w[8] == TraceFormatAscii
  {
    var startHz := startMhz * 1000000.0;
    var stopHz := stopMhz * 1000000.0;
    match res
    case None => []
    case Some(first) =>
      match vid
      case None => [first]
      case Some(v) =>
        [first, FreqStart(startHz), FreqStop(stopHz),
         FreqCenter((startHz + stopHz) / 2.0), FreqSpan(stopHz - startHz),
         SweepPoints(points), BandVid(v), DetectorPos, TraceFormatAscii]
  }

  /** The writes `_configure_sa` plans for its menu entries. */
  function PlannedWrites(startMhz: real, stopMhz: real, points: int, bwRes: string, bwVid: string)
    : seq<Command>
  {
    ConfigWrites(startMhz, stopMhz, points, ResolutionWrite(bwRes), ParseBandwidth(bwVid))
  }

  /** No configuration write starts a sweep. */
  lemma ConfigWritesNoInit(startMhz: real, stopMhz: real, points: int,
                           res: Option<Command>, vid: Option<real>)
    requires res.Some? ==> res.value != Init
    ensures forall i :: 0 <= i < |ConfigWrites(startMhz, stopMhz, points, res, vid)| ==>
      ConfigWrites(startMhz, stopMhz, points, res, vid)[i] != Init
  {
  }

  /** A resolution entry that does not parse stops the configuration
      before anything is written; a video entry that does not parse stops it
      after the resolution write, before any frequency is written. */
  lemma BadEntriesWriteNoFrequency(startMhz: real, stopMhz: real, points: int,
                                    bwRes: string, bwVid: string)
    ensures bwRes != "auto" && ParseBandwidth(bwRes).None? ==>
      PlannedWrites(startMhz, stopMhz, points, bwRes, bwVid) == []
    ensures (bwRes == "auto" || ParseBandwidth(bwRes).Some?) && ParseBandwidth(bwVid).None? ==>
      PlannedWrites(startMhz, stopMhz, points, bwRes, bwVid) == [ResolutionWrite(bwRes).value]
  {
  }

  /** `10^3` and `10^6` as scale factors. */
  lemma ScaleKiloMega(v: real)
    ensures Scale(v, 3) == v * 1000.0
    ensures Scale(v, 6) == v * 1000000.0
  {
    assert Scale(v, 1) == v * 10.0;
    assert Scale(v, 2) == v * 100.0;
    assert Scale(v, 4) == v * 10000.0;
    assert Scale(v, 5) == v * 100000.0;
  }

  /** Digits followed by `c` have the digits' text, then `sub`, after `c`
      is replaced by `sub`. */
  lemma ReplaceAfterDigits(d: string, c: char, sub: string)
    requires AllDigits(d) && !IsDigit(c)
    ensures Replace(d + [c], c, sub) == d + sub
  {
    ReplaceAppend(d, [c], c, sub);
    ReplaceAbsent(d, c, sub);
    assert [c][1..] == [];
  }

  /** A plain number of Hz is read as it is. */
  lemma BandwidthPlain(d: string)
    requires |d| > 0 && AllDigits(d)
    ensures ParseBandwidth(d) == Some(DigitsValue(d) as real)
  {
    ReplaceAbsent(d, 'k', "e3");
    ReplaceAbsent(d, 'M', "e6");
    ParseFloatDigits(d);
  }

  /** `<digits>k` becomes `<digits>e3` before it is read. */
  lemma KiloText(d: string)
    requires AllDigits(d)
    ensures Replace(Replace(d + "k", 'k', "e3"), 'M', "e6") == d + "e" + NatText(3)
  {
    ReplaceAfterDigits(d, 'k', "e3");
    var e := d + "e3";
    assert forall i :: 0 <= i < |e| ==> e[i] != 'M';
    ReplaceAbsent(e, 'M', "e6");
    assert NatText(3) == "3";
  }

  /** `<digits>M` becomes `<digits>e6` before it is read. */
  lemma MegaText(d: string)
    requires AllDigits(d)
    ensures Replace(Replace(d + "M", 'k', "e3"), 'M', "e6") == d + "e" + NatText(6)
  {
    assert forall i :: 0 <= i < |d + "M"| ==> (d + "M")[i] != 'k';
    ReplaceAbsent(d + "M", 'k', "e3");
    ReplaceAfterDigits(d, 'M', "e6");
    assert NatText(6) == "6";
  }

  /** `<digits>k` is the digits times 10^3 (see `ScaleKiloMega`). */
  lemma BandwidthKilo(d: string)
    requires |d| > 0 && AllDigits(d)
    ensures ParseBandwidth(d + "k") == Some(Scale(DigitsValue(d) as real, 3))
  {
    KiloText(d);
    ParseFloatExponent(d, 3);
  }

  /** `<digits>M` is the digits times 10^6 (see `ScaleKiloMega`). */
  lemma BandwidthMega(d: string)
    requires |d| > 0 && AllDigits(d)
    ensures ParseBandwidth(d + "M") == Some(Scale(DigitsValue(d) as real, 6))
  {
    MegaText(d);
    ParseFloatExponent(d, 6);
  }

  /** The resolution menu's entries: `auto` switches automatic resolution
      bandwidth on, and plain digits set that many Hz... */
  lemma ResolutionPlain(d: string)
    requires |d| > 0 && AllDigits(d)
    ensures ResolutionWrite("auto") == Some(BandResAuto)
    ensures ResolutionWrite(d) == Some(BandRes(DigitsValue(d) as real))
  {
    NotAuto(d);
    BandwidthPlain(d);
  }

  /** Entries ending in a digit, `k` or `M` are not `auto`. */
  lemma NotAuto(e: string)
    requires |e| > 0 && (IsDigit(e[|e| - 1]) || e[|e| - 1] == 'k' || e[|e| - 1] == 'M')
    ensures e != "auto"
  {
    assert "auto"[3] == 'o';
  }

  /** ...`<digits>k` that many kHz (10^3 Hz, see `ScaleKiloMega`)... */
  lemma ResolutionKilo(d: string)
    requires |d| > 0 && AllDigits(d)
    ensures ResolutionWrite(d + "k") == Some(BandRes(Scale(DigitsValue(d) as real, 3)))
  {
    BandwidthKilo(d);
    NotAuto(d + "k");
  }

  /** ...and `<digits>M` that many MHz (10^6 Hz). */
  lemma ResolutionMega(d: string)
    requires |d| > 0 && AllDigits(d)
    ensures ResolutionWrite(d + "M") == Some(BandRes(Scale(DigitsValue(d) as real, 6)))
  {
    BandwidthMega(d);
    NotAuto(d + "M");
  }

  /** Writes that share one try block: they go out in order until one
      raises, and the rest are skipped. */
  method WriteAll(inst: Instrument, w: seq<Command>)
    modifies inst`log, inst`cursor
    ensures var n := Attempted(inst.script, old(inst.cursor), |w|);
      inst.log == old(inst.log) + w[..n] && inst.cursor == old(inst.cursor) + n
  {
    ghost var from := inst.cursor;
    ghost var k := FirstRaise(inst.script, from, |w|);
    var i := 0;
    while i < |w|
      invariant 0 <= i <= |w|
      invariant k >= i
      invariant inst.log == old(inst.log) + w[..i]
      invariant inst.cursor == from + i
    {
      var ok := inst.Write(w[i]);
      assert w[..i + 1] == w[..i] + [w[i]];
      if !ok {
        assert k == i;
        return;
      }
      i := i + 1;
    }
    assert w[..i] == w;
  }

  /** `_configure_sa`: the planned writes go out in order until one raises;
      the error is swallowed. No sweep is started. */
  method Configure(inst: Instrument, startMhz: real, stopMhz: real, points: int,
                   bwRes: string, bwVid: string)
    modifies inst`log, inst`cursor
    ensures var w := PlannedWrites(startMhz, stopMhz, points, bwRes, bwVid);
      var n := Attempted(inst.script, old(inst.cursor), |w|);
      inst.log == old(inst.log) + w[..n] && inst.cursor == old(inst.cursor) + n
    ensures Inits(inst.log) == Inits(old(inst.log))
  {
    var res := ResolutionWrite(bwRes);
    var w := ConfigWrites(startMhz, stopMhz, points, res, ParseBandwidth(bwVid));
    ConfigWritesNoInit(startMhz, stopMhz, points, res, ParseBandwidth(bwVid));
    WriteAll(inst, w);
    var n := Attempted(inst.script, old(inst.cursor), |w|);
    InitsAppend(old(inst.log), w[..n]);
    InitsNone(w[..n]);
  }
}

=== FILE: freq_range.dfy ===
/** How a panel's frequency entries become the start and stop of a sweep,
    in MHz: either typed directly, or derived from a centre and a span. */
module FreqRange {
  import opened Results
  import opened Text

  /** The panel's frequency mode selector. */
  datatype FreqMode = StartStop | CenterSpan

  /** The four frequency entries of a panel, as typed, and the mode in use. */
  datatype FreqEntries = FreqEntries(
    mode: FreqMode, start: string, stop: string, center: string, span: string)

  /** One entry read as a number, a decimal comma being taken for a point. */
  function ReadEntry(text: string): Option<real> {
    ParseFloat(Replace(text, ',', "."))
  }

  /** The start and stop frequency, in MHz, for the panel's mode; a
      malformed entry is a `ValueError`. No ordering of start and stop is
      checked. */
  function ResolveRange(e: FreqEntries): (r: Result<(real, real)>)
    ensures r.Err? ==> r.error == ValueError
    ensures e.mode == StartStop ==>
      (r.Ok? <==> ReadEntry(e.start).Some? && ReadEntry(e.stop).Some?)
    ensures e.mode == StartStop && r.Ok? ==>
      r.value == (ReadEntry(e.start).value, ReadEntry(e.stop).value)
    ensures e.mode == CenterSpan ==>
      (r.Ok? <==> ReadEntry(e.center).Some? && ReadEntry(e.span).Some?)
    ensures e.mode == CenterSpan && r.Ok? ==>
      r.value.1 - r.value.0 == ReadEntry(e.span).value
      && r.value.0 + r.value.1 == 2.0 * ReadEntry(e.center).value
  {
    match e.mode
    case CenterSpan =>
      (match ReadEntry(e.center)
       case None => Err(ValueError)
       case Some(center) =>
         match ReadEntry(e.span)
         case None => Err(ValueError)
         case Some(span) => Ok((center - span / 2.0, center + span / 2.0)))
    case StartStop =>
      (match ReadEntry(e.start)
       case None => Err(ValueError)
       case Some(start) =>
         match ReadEntry(e.stop)
         case None => Err(ValueError)
         case Some(stop) => Ok((start, stop)))
  }

  /** Reading an entry that was already normalised gives the same number:
      normalising the decimal separator is idempotent. */
  lemma ReadEntryNormalised(text: string)
    ensures ReadEntry(Replace(text, ',', ".")) == ReadEntry(text)
  {
    ReplaceRemoves(text, ',', ".");
    ReplaceAbsent(Replace(text, ',', "."), ',', ".");
  }

  /** An entry of plain digits reads as its value. */
  lemma ReadEntryDigits(d: string)
    requires |d| > 0 && AllDigits(d)
    ensures ReadEntry(d) == Some(DigitsValue(d) as real)
  {
    ReplaceAbsent(d, ',', ".");
    ParseFloatDigits(d);
  }

  /** `12,5` reads as `12.5` does, although `float` alone rejects it. */
  lemma DecimalComma(ip: string, fp: string)
    requires |ip| > 0 && AllDigits(ip) && |fp| > 0 && AllDigits(fp)
    ensures ReadEntry(ip + "," + fp) == Some(Decimal(ip, fp))
    ensures ReadEntry(ip + "." + fp) == ReadEntry(ip + "," + fp)
    ensures ParseFloat(ip + "," + fp) == None
  {
    ReplaceAppend(ip + ",", fp, ',', ".");
    ReplaceAppend(ip, ",", ',', ".");
    ReplaceAbsent(ip, ',', ".");
    ReplaceAbsent(fp, ',', ".");
    assert Replace(",", ',', ".") == "." by {
      assert ","[1..] == [];
    }
    ReplaceAppend(ip + ".", fp, ',', ".");
    ReplaceAppend(ip, ".", ',', ".");
    assert Replace(".", ',', ".") == "." by {
      assert "."[1..] == [];
    }
    ParseFloatDecimal(ip, fp);
    assert ',' in ip + "," + fp by {
      assert (ip + "," + fp)[|ip|] == ',';
    }
    ParseFloatRejectsComma(ip + "," + fp);
  }

  /** Start and stop typed as whole numbers are taken as they are, in either
      order and when equal: the range is not validated. */
  lemma StartStopDigits(start: string, stop: string, center: string, span: string)
    requires |start| > 0 && AllDigits(start) && |stop| > 0 && AllDigits(stop)
    ensures ResolveRange(FreqEntries(StartStop, start, stop, center, span))
      == Ok((DigitsValue(start) as real, DigitsValue(stop) as real))
  {
    ReadEntryDigits(start);
    ReadEntryDigits(stop);
  }

  /** Centre and span typed as whole numbers give the range of that width
      around the centre. */
  lemma CenterSpanDigits(start: string, stop: string, center: string, span: string)
    requires |center| > 0 && AllDigits(center) && |span| > 0 && AllDigits(span)
    ensures ResolveRange(FreqEntries(CenterSpan, start, stop, center, span)).Ok?
    ensures ResolveRange(FreqEntries(CenterSpan, start, stop, center, span)).value.0
      == DigitsValue(center) as real - DigitsValue(span) as real / 2.0
    ensures ResolveRange(FreqEntries(CenterSpan, start, stop, center, span)).value.1
      == DigitsValue(center) as real + DigitsValue(span) as real / 2.0
  {
    ReadEntryDigits(center);
    ReadEntryDigits(span);
  }

  /** Start 10 and stop 10 give (10, 10): an empty range is let through. */
  lemma EmptyRangeAccepted(any: string)
    ensures ResolveRange(FreqEntries(StartStop, NatText(10), NatText(10), any, any)).Ok?
    ensures ResolveRange(FreqEntries(StartStop, NatText(10), NatText(10), any, any)).value
      == (10.0, 10.0)
  {
    StartStopDigits(NatText(10), NatText(10), any, any);
  }

  /** Centre 1000 and span 2000 give (0, 2000). */
  lemma CenterSpanExample(any: string)
    ensures ResolveRange(FreqEntries(CenterSpan, any, any, NatText(1000), NatText(2000))).Ok?
    ensures ResolveRange(FreqEntries(CenterSpan, any, any, NatText(1000), NatText(2000))).value.0
      == 0.0
    ensures ResolveRange(FreqEntries(CenterSpan, any, any, NatText(1000), NatText(2000))).value.1
      == 2000.0
  {
    CenterSpanDigits(any, any, NatText(1000), NatText(2000));
  }
}

=== FILE: peak_hold.dfy ===
/** The peak-hold ("max hold") trace each analyser panel keeps beside the
    live trace: the element-wise maximum of every trace since the last reset,
    drawn against the frequency axis of the trace that started it. */
module PeakHold {
  import opened Results
  import opened TraceDecoder

  /** `max_freqs` and `max_vals` of one analyser; `None` until the first
      trace after start-up or a reset. */
  datatype Held = Held(freqs: Option<seq<real>>, vals: Option<seq<real>>)

  /** The state after `reset_peak`. */
  const Cleared: Held := Held(None, None)

  /** `np.maximum` of two arrays of the same length. */
  function ElementwiseMax(a: seq<real>, b: seq<real>): (m: seq<real>)
    requires |a| == |b|
    ensures |m| == |a|
    ensures forall i :: 0 <= i < |a| ==> m[i] >= a[i] && m[i] >= b[i]
    ensures forall i :: 0 <= i < |a| ==> m[i] == a[i] || m[i] == b[i]
  {
    seq(|a|, i requires 0 <= i < |a| => if a[i] >= b[i] then a[i] else b[i])
  }

  /** Whether a new trace starts the hold afresh rather than being folded
      into it: nothing held yet, or a held trace of another length. */
  predicate Restarts(h: Held, vals: seq<real>) {
    h.vals.None? || h.freqs.None? || |h.vals.value| != |vals|
  }

  /** The held state after one live trace `(freqs, vals)` is plotted. */
  function Update(h: Held, freqs: seq<real>, vals: seq<real>): (r: Held)
    ensures r.freqs.Some? && r.vals.Some? && |r.vals.value| == |vals|
    ensures Restarts(h, vals) ==> r == Held(Some(freqs), Some(vals))
    ensures !Restarts(h, vals) ==> r.freqs == h.freqs
    ensures !Restarts(h, vals) ==>
      forall i :: 0 <= i < |vals| ==>
        r.vals.value[i] >= h.vals.value[i] && r.vals.value[i] >= vals[i]
        && (r.vals.value[i] == h.vals.value[i] || r.vals.value[i] == vals[i])
  {
    if Restarts(h, vals) then Held(Some(freqs), Some(vals))
    else Held(h.freqs, Some(ElementwiseMax(h.vals.value, vals)))
  }

  /** Held frequencies and values have the same length. */
  predicate Consistent(h: Held) {
    h.freqs.Some? == h.vals.Some?
    && (h.vals.Some? ==> |h.freqs.value| == |h.vals.value|)
  }

  /** Plotting a decoded trace keeps the held arrays aligned. */
  lemma UpdateConsistent(h: Held, freqs: seq<real>, vals: seq<real>)
    requires Consistent(h) && |freqs| == |vals|
    ensures Consistent(Update(h, freqs, vals))
  {
  }

  /** The held values never fall below the newest trace. */
  lemma UpdateDominates(h: Held, freqs: seq<real>, vals: seq<real>)
    ensures forall i :: 0 <= i < |vals| ==> Update(h, freqs, vals).vals.value[i] >= vals[i]
  {
  }

  /** Plotting the same trace twice holds the same state as plotting it once. */
  lemma UpdateIdempotent(h: Held, freqs: seq<real>, vals: seq<real>)
    ensures Update(Update(h, freqs, vals), freqs, vals) == Update(h, freqs, vals)
  {
    var once := Update(h, freqs, vals);
    var twice := Update(once, freqs, vals);
    assert !Restarts(once, vals);
    assert twice.vals.value == once.vals.value;
  }

  /** The held state after plotting `traces` in order, from `start`. */
  function HoldAll(start: Held, traces: seq<Trace>): Held
    decreases |traces|
  {
    if traces == [] then start
    else
      var last := traces[|traces| - 1];
      Update(HoldAll(start, traces[..|traces| - 1]), last.freqs, last.vals)
  }

  /** After a reset, a run of traces of one length holds their running
      maximum: each held value is at least the value of every trace at that
      point and equals the value of one of them, on the frequency axis of the
      first trace. */
  lemma {:induction false} RunningMaximum(traces: seq<Trace>, n: nat)
    requires |traces| >= 1
    requires forall k :: 0 <= k < |traces| ==> |traces[k].vals| == n
    ensures HoldAll(Cleared, traces).freqs == Some(traces[0].freqs)
    ensures |HoldAll(Cleared, traces).vals.value| == n
    ensures forall i, k :: 0 <= i < n && 0 <= k < |traces| ==>
      HoldAll(Cleared, traces).vals.value[i] >= traces[k].vals[i]
    ensures forall i :: 0 <= i < n ==>
      exists k :: 0 <= k < |traces| && HoldAll(Cleared, traces).vals.value[i] == traces[k].vals[i]
    decreases |traces|
  {
    var m := |traces|;
    var last := traces[m - 1];
    if m == 1 {
      assert traces[..0] == [];
      assert HoldAll(Cleared, traces) == Held(Some(last.freqs), Some(last.vals));
    } else {
      var init := traces[..m - 1];
      assert forall k :: 0 <= k < |init| ==> init[k] == traces[k];
      RunningMaximum(init, n);
      var before := HoldAll(Cleared, init);
      var after := HoldAll(Cleared, traces);
      assert after == Update(before, last.freqs, last.vals);
      assert !Restarts(before, last.vals);
      forall i, k | 0 <= i < n && 0 <= k < m
        ensures after.vals.value[i] >= traces[k].vals[i]
      {
        if k < m - 1 {
          assert before.vals.value[i] >= init[k].vals[i];
        }
      }
      forall i | 0 <= i < n
        ensures exists k :: 0 <= k < m && after.vals.value[i] == traces[k].vals[i]
      {
        if after.vals.value[i] == last.vals[i] {
          assert after.vals.value[i] == traces[m - 1].vals[i];
        } else {
          var k :| 0 <= k < m - 1 && before.vals.value[i] == init[k].vals[i];
          assert after.vals.value[i] == traces[k].vals[i];
        }
      }
    }
  }

  /** A trace of another length discards everything held before it. */
  lemma LengthChangeRestarts(h: Held, freqs: seq<real>, vals: seq<real>)
    requires h.vals.Some? && |h.vals.value| != |vals|
    ensures Update(h, freqs, vals) == Update(Cleared, freqs, vals)
  {
  }

  /** Three-point traces [1, 2, 3] then [0, 5, 1] hold [1, 5, 3]; after a
      reset, [9] holds [9]. */
  lemma HoldExamples(f3: seq<real>, f1: seq<real>)
    ensures Update(Update(Cleared, f3, [1.0, 2.0, 3.0]), f3, [0.0, 5.0, 1.0]).vals
      == Some([1.0, 5.0, 3.0])
    ensures Update(Cleared, f1, [9.0]).vals == Some([9.0])
  {
    var h := Update(Cleared, f3, [1.0, 2.0, 3.0]);
    assert !Restarts(h, [0.0, 5.0, 1.0]);
    assert ElementwiseMax([1.0, 2.0, 3.0], [0.0, 5.0, 1.0]) == [1.0, 5.0, 3.0];
  }
}

=== FILE: results.dfy ===
/** Failure-carrying values shared by the instrument model: Python's `None`
    and the exceptions that the viewer's core raises or swallows. */
module Results {

  datatype Option<+T> = None | Some(value: T)

  /** The exception classes the core distinguishes: a bad number (ValueError),
      an index past the end of a string (IndexError) and a failed VISA
      write, read or open (the transport's own error). */
  datatype Error = ValueError | IndexError | TransportError

  datatype Result<+T> = Ok(value: T) | Err(error: Error)
}

=== FILE: scpi.dfy ===
/** The instrument as the viewer sees it through VISA: a handle that takes
    SCPI writes, answers reads, has a timeout and can be closed. The real
    transport is not modelled; an `Instrument` instead logs every write it
    is asked to make and consumes a script of outcomes, one per write, read
    or close, so that every failure the transport could raise is an input. */
module Scpi {

  /** The fixed SCPI command set the viewer sends. Numeric arguments are
      carried as values (the instrument receives Python's `str` of them). */
  datatype Command =
    | BandResAuto              // :BAND:RES:AUTO ON
    | BandRes(hz: real)        // :BAND:RES <hz>
    | FreqStart(hz: real)      // :FREQ:STAR <hz>
    | FreqStop(hz: real)       // :FREQ:STOP <hz>
    | FreqCenter(hz: real)     // :FREQ:CENT <hz>
    | FreqSpan(hz: real)       // :FREQ:SPAN <hz>
    | SweepPoints(n: int)      // :SWE:POIN <n>
    | BandVid(hz: real)        // :BAND:VID <hz>
    | DetectorPos              // :DET POS
    | TraceFormatAscii         // :FORM:TRAC:DATA ASCii
    | InitContOff              // :INIT:CONT OFF
    | Init                     // :INIT
    | SweepTimeQuery           // :SWE:TIME?
    | SweepPointsQuery         // :SWE:POIN?
    | FreqStartQuery           // :FREQ:STAR?
    | FreqStopQuery            // :FREQ:STOP?
    | TraceDataQuery           // :TRAC:DATA? TRACE1
    | OpcQuery                 // *OPC?
    | IdnQuery                 // *IDN?

  /** What one transport operation does: completes (a read returns `text`;
      a write or close ignores it) or raises. */
  datatype Outcome = Done(text: string) | Raised

  /** The `i`-th scripted outcome; once the script is used up every
      operation raises, as a timed-out transport does. */
  function At(script: seq<Outcome>, i: nat): Outcome {
    if i < |script| then script[i] else Raised
  }

  /** How many of `n` consecutive operations, starting at position `from`
      of the script, complete before the first one that raises: the index
      of that operation, or `n` when none raises. */
  function FirstRaise(script: seq<Outcome>, from: nat, n: nat): (k: nat)
    ensures k <= n
    ensures forall j :: from <= j < from + k ==> At(script, j).Done?
    ensures k < n ==> At(script, from + k).Raised?
    decreases n
  {
    if n == 0 then 0
    else if At(script, from).Raised? then 0
    else 1 + FirstRaise(script, from + 1, n - 1)
  }

  /** How many of `n` writes in one try block are attempted: all of them,
      or up to and including the first that raises. */
  function Attempted(script: seq<Outcome>, from: nat, n: nat): (a: nat)
    ensures a <= n
    ensures a == n || (a >= 1 && At(script, from + a - 1).Raised?)
    ensures forall j :: from <= j < from + a - 1 ==> At(script, j).Done?
  {
    var k := FirstRaise(script, from, n);
    if k < n then k + 1 else n
  }

  /** How often `Init` occurs in a write log. */
  function Inits(log: seq<Command>): nat {
    if log == [] then 0
    else Inits(log[..|log| - 1]) + (if log[|log| - 1] == Init then 1 else 0)
  }

  lemma {:induction false} InitsAppend(a: seq<Command>, b: seq<Command>)
    ensures Inits(a + b) == Inits(a) + Inits(b)
    decreases |b|
  {
    if b != [] {
      assert (a + b)[..|a + b| - 1] == a + b[..|b| - 1];
      InitsAppend(a, b[..|b| - 1]);
    } else {
      assert a + b == a;
    }
  }

  lemma {:induction false} InitsNone(log: seq<Command>)
    requires forall i :: 0 <= i < |log| ==> log[i] != Init
    ensures Inits(log) == 0
  {
    if log != [] {
      InitsNone(log[..|log| - 1]);
    }
  }

  /** An `Init` write adds one to the count. */
  lemma InitsAppendInit(log: seq<Command>)
    ensures Inits(log + [Init]) == Inits(log) + 1
  {
    assert (log + [Init])[..|log|] == log;
  }

  /** A write other than `Init` leaves the count unchanged. */
  lemma InitsAppendOther(log: seq<Command>, c: Command)
    requires c != Init
    ensures Inits(log + [c]) == Inits(log)
  {
    assert (log + [c])[..|log|] == log;
  }

  /** One VISA instrument handle. */
  class Instrument {
    /** Every write attempted on this handle, in order. */
    var log: seq<Command>
    /** The outcome of every operation this handle will ever perform. */
    const script: seq<Outcome>
    /** How many operations have been performed. */
    var cursor: nat
    /** The VISA timeout in milliseconds. */
    var timeout: int
    /** False once a close has succeeded. */
    var open: bool

    constructor (script: seq<Outcome>, timeout: int)
      ensures this.script == script && this.timeout == timeout
      ensures log == [] && cursor == 0 && open
    {
      this.script := script;
      this.timeout := timeout;
      log := [];
      cursor := 0;
      open := true;
    }

    /** `inst.write(cmd)`: logged, then completes or raises. */
    method Write(c: Command) returns (ok: bool)
      modifies this`log, this`cursor
      ensures log == old(log) + [c]
      ensures cursor == old(cursor) + 1
      ensures ok == At(script, old(cursor)).Done?
    {
      log := log + [c];
      ok := At(script, cursor).Done?;
      cursor := cursor + 1;
    }

    /** `inst.read()`: the next scripted reply, or a raise. */
    method Read() returns (ok: bool, reply: string)
      modifies this`cursor
      ensures cursor == old(cursor) + 1
      ensures ok == At(script, old(cursor)).Done?
      ensures ok ==> reply == At(script, old(cursor)).text
    {
      ok := At(script, cursor).Done?;
      reply := if ok then At(script, cursor).text else "";
      cursor := cursor + 1;
    }

    /** `inst.close()`: the handle stays open when closing raises. */
    method Close() returns (ok: bool)
      modifies this`open, this`cursor
      ensures cursor == old(cursor) + 1
      ensures ok == At(script, old(cursor)).Done?
      ensures open == (old(open) && !ok)
    {
      ok := At(script, cursor).Done?;
      if ok {
        open := false;
      }
      cursor := cursor + 1;
    }
  }

  /** The VISA resource manager; only its close matters to the core. */
  class ResourceManager {
    var open: bool
    /** Whether `rm.close()` raises. */
    const closeRaises: bool

    constructor (closeRaises: bool)
      ensures open && this.closeRaises == closeRaises
    {
      open := true;
      this.closeRaises := closeRaises;
    }

    method Close() returns (ok: bool)
      modifies this`open
      ensures ok == !closeRaises
      ensures open == (old(open) && closeRaises)
    {
      ok := !closeRaises;
      if ok {
        open := false;
      }
    }
  }
}

=== FILE: session.dfy ===
/** The dual-analyser viewer: one `Session` per analyser panel (the fields
    `inst1`, `continuous1`, `max_freqs1`, `max_vals1` of SA1 and their
    SA2 counterparts) and the window that owns two of them with the shared
    VISA resource manager. The handlers that Python runs on a worker thread
    run to completion here; the loop flag that the user may clear from the
    UI thread while the continuous loop runs is an input, `flagAt(k)`, the
    value the loop reads at its `k`-th check. */
module Dual {
  import opened Results
  import opened Text
  import opened Scpi
  import opened TraceDecoder
  import opened PeakHold
  import opened FreqRange
  import opened SweepConfig
  import opened Sweep

  /** What a panel's widgets hold when a sweep starts. */
  datatype PanelSettings = PanelSettings(range: FreqEntries, points: string, bwRes: string, bwVid: string)

  /** How a click on a panel's connect button ends. */
  datatype ConnectResult = NoAddress | Disconnected | Connected(idn: string) | ConnectFailed

  /** How a run of the continuous loop ends: not started at all, failed
      before the loop, stopped because the flag was cleared, or ended by a
      sweep that raised. */
  datatype LoopEnd = NotStarted | SetupFailed | Stopped | SweepFailed

  /** The VISA timeout set on connect, in milliseconds. */
  const SessionTimeout: int := 120000
  /** The VISA timeout while the continuous loop runs, in milliseconds. */
  const LoopTimeout: int := 30000

  /** Whether a panel's frequency range and point count parse. */
  predicate SettingsParse(s: PanelSettings) {
    ResolveRange(s.range).Ok? && ParseInt(s.points).Some?
  }

  /** The configuration writes `_configure_sa` plans for a panel whose
      entries parse. */
  function SettingsWrites(s: PanelSettings): seq<Command>
    requires SettingsParse(s)
  {
    var range := ResolveRange(s.range).value;
    PlannedWrites(range.0, range.1, ParseInt(s.points).value, s.bwRes, s.bwVid)
  }

  /** The writes planned for a panel are those for its parsed range and
      point count. */
  lemma SettingsWritesOf(s: PanelSettings, start: real, stop: real, points: int)
    requires ResolveRange(s.range) == Ok((start, stop)) && ParseInt(s.points) == Some(points)
    ensures SettingsParse(s) && SettingsWrites(s) == PlannedWrites(start, stop, points, s.bwRes, s.bwVid)
  { }

  /** What a sweep that read its trace leaves behind, from log `log0` to
      `log`: an axis as long as the values, exactly one triggered sweep, and
      the trace queries as the last writes. */
  predicate SweepLogged(log0: seq<Command>, log: seq<Command>, r: Result<Trace>) {
    r.Ok? ==>
      |r.value.freqs| == |r.value.vals|
      && Inits(log) == Inits(log0) + 1
      && |log| >= |TraceQueries|
      && log[|log| - |TraceQueries|..] == TraceQueries
  }

  /** `do_sweep` up to the plot: the range and point count are read, the
      analyser is configured, one sweep is triggered and waited for, and the
      trace is read. */
  method SweepSettings(h: Instrument, settings: PanelSettings) returns (r: Result<Trace>)
    modifies h`log, h`cursor
    ensures !SettingsParse(settings) ==>
      r == Err(ValueError) && h.log == old(h.log) && h.cursor == old(h.cursor)
    ensures SettingsParse(settings) ==>
      SweptAfter(h.script, SettingsWrites(settings), old(h.log), old(h.cursor), h.log, h.cursor, r)
    ensures r.Ok? ==> SettingsParse(settings)
    ensures SweepLogged(old(h.log), h.log, r)
  {
    var range := ResolveRange(settings.range);
    if range.Err? {
      return Err(range.error);
    }
    var pts := ParseInt(settings.points);
    if pts.None? {
      return Err(ValueError);
    }
    SettingsWritesOf(settings, range.value.0, range.value.1, pts.value);
    r := ConfiguredSweep(h, range.value.0, range.value.1, pts.value, settings.bwRes, settings.bwVid);
  }

  /** How many sweeps a run of the continuous loop triggered: one per trace
      posted, and one more when the last iteration raised. */
  function LoopSweeps(end: LoopEnd, posted: seq<Trace>): nat {
    |posted| + (if end == SweepFailed then 1 else 0)
  }

  /** A trace posted by an iteration that found the flag set keeps the
      loop's record of posted traces consistent. */
  lemma PostOne(flagAt: nat -> bool, posted: seq<Trace>, t: Trace)
    requires forall k :: 0 <= k < |posted| ==> flagAt(k)
    requires forall k :: 0 <= k < |posted| ==> |posted[k].freqs| == |posted[k].vals|
    requires flagAt(|posted|) && |t.freqs| == |t.vals|
    ensures forall k :: 0 <= k < |posted + [t]| ==> flagAt(k)
    ensures forall k :: 0 <= k < |posted + [t]| ==> |(posted + [t])[k].freqs| == |(posted + [t])[k].vals|
  {
  }

  /** A continuous run after the configuration writes `w`, taking the log
      from `log0` to `log` from script position `c0`, with outcome `end`:
      the writes attempted before the first one that raised went out in
      order, followed by continuous mode off, and the run failed before the
      loop exactly when that last write raised. */
  predicate LoopSetUp(script: seq<Outcome>, w: seq<Command>, log0: seq<Command>, c0: nat,
                      log: seq<Command>, end: LoopEnd)
  {
    var n := Attempted(script, c0, |w|);
    log0 + w[..n] + [InitContOff] <= log
    && (end == SetupFailed <==> At(script, c0 + n).Raised?)
  }

  /** Later writes keep the set-up at the head of the log. */
  lemma {:induction false} LoopSetUpKept(script: seq<Outcome>, w: seq<Command>, log0: seq<Command>, c0: nat,
                                         log: seq<Command>, log': seq<Command>, end: LoopEnd)
    requires LoopSetUp(script, w, log0, c0, log, end) && log <= log'
    ensures LoopSetUp(script, w, log0, c0, log', end)
  {
    var n := Attempted(script, c0, |w|);
    var p := log0 + w[..n] + [InitContOff];
    assert p <= log;
    assert log'[..|p|] == log[..|p|];
  }

  /** The set-up of `do_continuous`: the analyser is configured, then
      continuous mode is switched off whether or not the configuration
      raised; `ok` is whether that last write went through. */
  method PrepareLoop(h: Instrument, startMhz: real, stopMhz: real, points: int,
                     bwRes: string, bwVid: string) returns (ok: bool)
    modifies h`log, h`cursor
    ensures var w := PlannedWrites(startMhz, stopMhz, points, bwRes, bwVid);
      var n := Attempted(h.script, old(h.cursor), |w|);
      h.log == old(h.log) + w[..n] + [InitContOff] && h.cursor == old(h.cursor) + n + 1
      && (ok <==> At(h.script, old(h.cursor) + n).Done?)
    ensures Inits(h.log) == Inits(old(h.log))
  {
    Configure(h, startMhz, stopMhz, points, bwRes, bwVid);
    ghost var log1 := h.log;
    ok := h.Write(InitContOff);
    InitsAppendOther(log1, InitContOff);
  }

  /** One analyser's state in the viewer. */
  class Session {
    /** The open VISA handle, or null when not connected. */
    var inst: Instrument?
    /** The continuous-sweep flag. */
    var continuous: bool
    var maxFreqs: Option<seq<real>>
    var maxVals: Option<seq<real>>

    /** The peak-hold state. */
    function Peak(): Held
      reads this
    {
      Held(maxFreqs, maxVals)
    }

    constructor ()
      ensures inst == null && !continuous && Peak() == Cleared
    {
      inst := null;
      continuous := false;
      maxFreqs := None;
      maxVals := None;
    }

    /** `_update_plot1/2`, peak-hold part: restart the hold on the first
        trace or a trace of another length, otherwise keep the element-wise
        maximum. */
    method UpdatePlot(freqs: seq<real>, vals: seq<real>)
      modifies this`maxFreqs, this`maxVals
      ensures Peak() == Update(old(Peak()), freqs, vals)
    {
      if maxVals.None? || maxFreqs.None? || |maxVals.value| != |vals| {
        maxFreqs := Some(freqs);
        maxVals := Some(vals);
      } else {
        maxVals := Some(ElementwiseMax(maxVals.value, vals));
      }
    }

    /** The plot update that follows a sweep, when its trace was read. */
    method PlotIfRead(trace: Result<Trace>)
      modifies this`maxFreqs, this`maxVals
      ensures trace.Ok? ==> Peak() == Update(old(Peak()), trace.value.freqs, trace.value.vals)
      ensures trace.Err? ==> Peak() == old(Peak())
    {
      if trace.Ok? {
        UpdatePlot(trace.value.freqs, trace.value.vals);
      }
    }

    /** The UI thread running the plot updates a worker posted, in order. */
    method ApplyPosted(posted: seq<Trace>)
      modifies this`maxFreqs, this`maxVals
      ensures Peak() == HoldAll(old(Peak()), posted)
    {
      var i := 0;
      while i < |posted|
        invariant 0 <= i <= |posted|
        invariant Peak() == HoldAll(old(Peak()), posted[..i])
      {
        assert posted[..i + 1][..i] == posted[..i];
        UpdatePlot(posted[i].freqs, posted[i].vals);
        i := i + 1;
      }
      assert posted[..i] == posted;
    }

    /** `reset_peak1/2`. */
    method ResetPeak()
      modifies this`maxFreqs, this`maxVals
      ensures Peak() == Cleared
    {
      maxVals := None;
      maxFreqs := None;
    }

    /** `_check_connection1/2`: `*OPC?` answered with a reply containing
        `1`; false when not connected or when the exchange raises. */
    method CheckConnection() returns (alive: bool)
      modifies inst
      ensures inst == null ==> !alive
      ensures inst != null ==> inst.log == old(inst.log) + [OpcQuery]
      ensures inst != null ==>
        (alive <==> QueryReply(inst.script, old(inst.cursor)).Some?
                    && '1' in QueryReply(inst.script, old(inst.cursor)).value)
    {
      if inst == null {
        return false;
      }
      var reply := Query(inst, OpcQuery);
      alive := reply.Some? && '1' in reply.value;
    }

    /** `connect1/2`. An empty address is refused. A connected panel is
        disconnected instead: the loop flag drops, the handle is closed
        (a raise is ignored) and forgotten, and the peak hold is cleared.
        Otherwise `handle` is what `open_resource` returned (null when the
        resource manager or the open raised): it gets the long timeout and
        answers `*IDN?`; when that exchange raises the handle is forgotten
        without being closed. */
    method Connect(ip: string, handle: Instrument?) returns (res: ConnectResult)
      modifies this`inst, this`continuous, this`maxFreqs, this`maxVals
      modifies inst
      modifies handle
      ensures ip == [] ==>
        res == NoAddress && inst == old(inst) && continuous == old(continuous) && Peak() == old(Peak())
      ensures ip != [] && old(inst) != null ==>
        res == Disconnected && inst == null && !continuous && Peak() == Cleared
        && old(inst).cursor == old(inst.cursor) + 1
      ensures ip != [] && old(inst) == null ==>
        continuous == old(continuous) && Peak() == old(Peak())
      ensures ip != [] && old(inst) == null && handle == null ==>
        res == ConnectFailed && inst == null
      ensures ip != [] && old(inst) == null && handle != null ==>
        handle.timeout == SessionTimeout && handle.log == old(handle.log) + [IdnQuery]
        && handle.open == old(handle.open)
      ensures ip != [] && old(inst) == null && handle != null ==>
        var reply := QueryReply(handle.script, old(handle.cursor));
        (reply.Some? ==> res == Connected(Strip(reply.value)) && inst == handle)
        && (reply.None? ==> res == ConnectFailed && inst == null)
    {
      if ip == [] {
        return NoAddress;
      }
      if inst != null {
        continuous := false;
        var closed := inst.Close();
        inst := null;
        maxVals := None;
        maxFreqs := None;
        return Disconnected;
      }
      if handle == null {
        return ConnectFailed;
      }
      inst := handle;
      handle.timeout := SessionTimeout;
      var reply := Query(handle, IdnQuery);
      if reply.None? {
        inst := null;
        return ConnectFailed;
      }
      res := Connected(Strip(reply.value));
    }

    /** `sweep1/2` with `do_sweep`: null when not connected; otherwise the
        range and point count are read, the analyser is configured, one
        sweep is triggered and waited for, and the trace is read. A
        successful trace is then plotted (`UpdatePlot`). */
    method SweepOnce(settings: PanelSettings) returns (r: Option<Result<Trace>>)
      modifies this`maxFreqs, this`maxVals, inst
      ensures inst == null <==> r.None?
      ensures inst != null && !SettingsParse(settings) ==>
        r == Some(Err(ValueError)) && inst.log == old(inst.log) && inst.cursor == old(inst.cursor)
      ensures inst != null && SettingsParse(settings) ==>
        r.Some? && SweptAfter(inst.script, SettingsWrites(settings), old(inst.log), old(inst.cursor),
                              inst.log, inst.cursor, r.value)
      ensures r.Some? && r.value.Ok? ==> SettingsParse(settings)
      ensures r.Some? ==> SweepLogged(old(inst.log), inst.log, r.value)
      ensures r.Some? && r.value.Ok? ==>
        Peak() == Update(old(Peak()), r.value.value.freqs, r.value.value.vals)
      ensures !(r.Some? && r.value.Ok?) ==> Peak() == old(Peak())
    {
      if inst == null {
        return None;
      }
      var h := inst;
      var trace := SweepSettings(h, settings);
      ghost var log1, c1 := h.log, h.cursor;
      PlotIfRead(trace);
      assert inst == h && h.log == log1 && h.cursor == c1;
      r := Some(trace);
    }

    /** The `while` loop of `do_continuous`, from its first check of the
        flag: each iteration that finds the flag set triggers a sweep and
        reads its trace; the first iteration that raises ends the loop. */
    method RunLoop(h: Instrument, flagAt: nat -> bool) returns (end: LoopEnd, posted: seq<Trace>)
      requires h.cursor <= |h.script|
      modifies this`continuous, h`log, h`cursor
      ensures end == Stopped || end == SweepFailed
      ensures forall k :: 0 <= k < |posted| ==> flagAt(k)
      ensures end == Stopped ==> !flagAt(|posted|) && !continuous
      ensures end == SweepFailed ==> flagAt(|posted|)
      ensures forall k :: 0 <= k < |posted| ==> |posted[k].freqs| == |posted[k].vals|
      ensures Inits(h.log) == Inits(old(h.log)) + LoopSweeps(end, posted)
      ensures old(h.log) <= h.log
    {
      posted := [];
      end := Stopped;
      while true
        invariant h.cursor <= |h.script|
        invariant forall k :: 0 <= k < |posted| ==> flagAt(k)
        invariant forall k :: 0 <= k < |posted| ==> |posted[k].freqs| == |posted[k].vals|
        invariant Inits(h.log) == Inits(old(h.log)) + |posted|
        invariant old(h.log) <= h.log
        decreases |h.script| - h.cursor
      {
        continuous := flagAt(|posted|);
        if !continuous {
          return Stopped, posted;
        }
        var trace := LoopStep(h);
        if trace.None? {
          return SweepFailed, posted;
        }
        PostOne(flagAt, posted, trace.value);
        posted := posted + [trace.value];
      }
    }

    /** `do_continuous` once its entries have been read: configure, switch
        continuous mode off (a raise here ends the run before the loop), and
        run the loop under the shorter timeout, restoring the old one after
        it. */
    method ConfiguredLoop(h: Instrument, startMhz: real, stopMhz: real, points: int,
                          bwRes: string, bwVid: string, flagAt: nat -> bool)
      returns (end: LoopEnd, posted: seq<Trace>)
      modifies this`continuous, h`log, h`cursor, h`timeout
      ensures end == SetupFailed || end == Stopped || end == SweepFailed
      ensures h.timeout == old(h.timeout) && old(h.log) <= h.log
      ensures Inits(h.log) == Inits(old(h.log)) + LoopSweeps(end, posted)
      ensures end == SetupFailed ==> posted == []
      ensures forall k :: 0 <= k < |posted| ==> flagAt(k)
      ensures end == Stopped ==> !flagAt(|posted|)
      ensures end == SweepFailed ==> flagAt(|posted|)
      ensures forall k :: 0 <= k < |posted| ==> |posted[k].freqs| == |posted[k].vals|
      ensures var w := PlannedWrites(startMhz, stopMhz, points, bwRes, bwVid);
        var n := Attempted(h.script, old(h.cursor), |w|);
        old(h.log) + w[..n] + [InitContOff] <= h.log
        && (end == SetupFailed <==> At(h.script, old(h.cursor) + n).Raised?)
    // the clause above, named for callers
    ensures LoopSetUp(h.script, PlannedWrites(startMhz, stopMhz, points, bwRes, bwVid),
                      old(h.log), old(h.cursor), h.log, end)
    {
      posted := [];
      end := SetupFailed;
      ghost var w := PlannedWrites(startMhz, stopMhz, points, bwRes, bwVid);
      ghost var n := Attempted(h.script, h.cursor, |w|);
      var ok := PrepareLoop(h, startMhz, stopMhz, points, bwRes, bwVid);
      ghost var log2 := h.log;
      assert log2 == old(h.log) + w[..n] + [InitContOff];
      if ok {
        var original := h.timeout;
        h.timeout := LoopTimeout;
        end, posted := RunLoop(h, flagAt);
        h.timeout := original;
      }
      assert log2 <= h.log;
    }

    /** The body of `do_continuous` up to its `finally`: the range and
        point count are read, and when they parse, the configured loop
        runs. Entries that do not parse end the run before anything is
        written. */
    method SettingsLoop(h: Instrument, settings: PanelSettings, flagAt: nat -> bool)
      returns (end: LoopEnd, posted: seq<Trace>)
      modifies this`continuous, h`log, h`cursor, h`timeout
      ensures end == SetupFailed || end == Stopped || end == SweepFailed
      ensures h.timeout == old(h.timeout) && old(h.log) <= h.log
      ensures Inits(h.log) == Inits(old(h.log)) + LoopSweeps(end, posted)
      ensures end == SetupFailed ==> posted == []
      ensures forall k :: 0 <= k < |posted| ==> flagAt(k)
      ensures end == Stopped ==> !flagAt(|posted|)
      ensures end == SweepFailed ==> flagAt(|posted|)
      ensures forall k :: 0 <= k < |posted| ==> |posted[k].freqs| == |posted[k].vals|
      ensures !SettingsParse(settings) ==> end == SetupFailed && h.log == old(h.log)
      ensures SettingsParse(settings) ==>
        LoopSetUp(h.script, SettingsWrites(settings), old(h.log), old(h.cursor), h.log, end)
    {
      posted := [];
      end := SetupFailed;
      var range := ResolveRange(settings.range);
      var pts := ParseInt(settings.points);
      if range.Ok? && pts.Some? {
        SettingsWritesOf(settings, range.value.0, range.value.1, pts.value);
        end, posted := ConfiguredLoop(h, range.value.0, range.value.1, pts.value,
                                      settings.bwRes, settings.bwVid, flagAt);
      }
    }

    /** `_start_continuous1/2` with `do_continuous`: nothing unless the flag
        is set and the panel connected. Otherwise the range and point count
        are read and the analyser configured, continuous mode is switched
        off, the timeout is shortened for the loop and restored after it;
        whatever happened, continuous mode is switched off once more at the
        end and the flag is cleared. */
    method StartContinuous(settings: PanelSettings, flagAt: nat -> bool)
      returns (end: LoopEnd, posted: seq<Trace>)
      modifies this`continuous, inst
      ensures !old(continuous) || inst == null ==>
        end == NotStarted && posted == [] && continuous == old(continuous)
      ensures !old(continuous) || inst == null ==>
        inst != null ==> inst.log == old(inst.log)
      ensures old(continuous) && inst != null ==>
        end != NotStarted && !continuous && inst.timeout == old(inst.timeout)
        && |inst.log| > |old(inst.log)| && inst.log[|inst.log| - 1] == InitContOff
        && Inits(inst.log) == Inits(old(inst.log)) + LoopSweeps(end, posted)
      ensures !SettingsParse(settings) ==> end == NotStarted || end == SetupFailed
      ensures old(continuous) && inst != null && !SettingsParse(settings) ==>
        inst.log == old(inst.log) + [InitContOff]
      ensures old(continuous) && inst != null && SettingsParse(settings) ==>
        LoopSetUp(inst.script, SettingsWrites(settings), old(inst.log), old(inst.cursor), inst.log, end)
      ensures end == SetupFailed ==> posted == []
      ensures forall k :: 0 <= k < |posted| ==> flagAt(k)
      ensures end == Stopped ==> !flagAt(|posted|)
      ensures end == SweepFailed ==> flagAt(|posted|)
      ensures forall k :: 0 <= k < |posted| ==> |posted[k].freqs| == |posted[k].vals|
    {
      posted := [];
      if !continuous || inst == null {
        return NotStarted, [];
      }
      var h := inst;
      end, posted := SettingsLoop(h, settings, flagAt);
      ghost var log2 := h.log;
      var stopped := h.Write(InitContOff);
      if SettingsParse(settings) {
        LoopSetUpKept(h.script, SettingsWrites(settings), old(h.log), old(h.cursor), log2, h.log, end);
      }
      assert h.log[|h.log| - 1] == InitContOff;
      InitsAppendOther(log2, InitContOff);
      continuous := false;
    }

    /** `toggle_continuous1/2`: refused when not connected; otherwise the
        flag flips, and switching it on starts the loop, whose posted traces
        the UI thread then folds into the peak hold. */
    method ToggleContinuous(settings: PanelSettings, flagAt: nat -> bool)
      returns (end: LoopEnd, posted: seq<Trace>)
      modifies this`continuous, this`maxFreqs, this`maxVals, inst
      ensures inst == null ==>
        end == NotStarted && continuous == old(continuous) && Peak() == old(Peak())
      ensures inst != null && old(continuous) ==>
        end == NotStarted && posted == [] && !continuous
        && inst.log == old(inst.log) && Peak() == old(Peak())
      ensures inst != null && !old(continuous) ==>
        end != NotStarted && !continuous && inst.timeout == old(inst.timeout)
        && Inits(inst.log) == Inits(old(inst.log)) + LoopSweeps(end, posted)
        && Peak() == HoldAll(old(Peak()), posted)
      ensures inst != null && !old(continuous) && SettingsParse(settings) ==>
        LoopSetUp(inst.script, SettingsWrites(settings), old(inst.log), old(inst.cursor), inst.log, end)
      ensures forall k :: 0 <= k < |posted| ==> flagAt(k)
    {
      posted := [];
      end := NotStarted;
      if inst == null {
        return;
      }
      continuous := !continuous;
      if continuous {
        end, posted := StartContinuous(settings, flagAt);
        ApplyPosted(posted);
      }
    }
  }

  /** Which analyser panel. */
  datatype Side = SA1 | SA2

  /** The main window with its two sessions and the resource manager. */
  class Viewer {
    const sa1: Session
    const sa2: Session
    /** The cached VISA resource manager, or null. */
    var rm: ResourceManager?

    /** The two sessions are distinct and never share a handle. */
    predicate Valid()
      reads this, sa1, sa2
    {
      sa1 != sa2 && (sa1.inst != null ==> sa1.inst != sa2.inst)
    }

    function Panel(side: Side): Session {
      if side == SA1 then sa1 else sa2
    }

    function Other(side: Side): Session {
      if side == SA1 then sa2 else sa1
    }

    constructor ()
      ensures Valid() && rm == null
      ensures sa1.inst == null && !sa1.continuous && sa1.Peak() == Cleared
      ensures sa2.inst == null && !sa2.continuous && sa2.Peak() == Cleared
    {
      sa1 := new Session();
      sa2 := new Session();
      rm := null;
    }

    /** `connect1` or `connect2`: only that panel's session and handle
        change. */
    method ConnectPanel(side: Side, ip: string, handle: Instrument?) returns (res: ConnectResult)
      requires Valid()
      requires handle != null ==> handle != Other(side).inst
      modifies Panel(side), Panel(side).inst, handle
      ensures Valid()
      ensures unchanged(Other(side))
      ensures Other(side).inst != null ==> unchanged(Other(side).inst)
    {
      res := Panel(side).Connect(ip, handle);
    }

    /** `toggle_continuous1` or `toggle_continuous2`: only that panel's
        session and handle change. */
    method TogglePanel(side: Side, settings: PanelSettings, flagAt: nat -> bool)
      returns (end: LoopEnd, posted: seq<Trace>)
      requires Valid()
      modifies Panel(side), Panel(side).inst
      ensures Valid()
      ensures unchanged(Other(side))
      ensures Other(side).inst != null ==> unchanged(Other(side).inst)
    {
      end, posted := Panel(side).ToggleContinuous(settings, flagAt);
    }

    /** `_reset_network` as written: both loop flags drop, then each handle
        and the resource manager are closed and forgotten in a try block of
        their own, where a close that raises skips the forgetting; both peak
        holds are cleared. */
    method ResetNetworkAsWritten()
      requires Valid()
      modifies sa1, sa2, sa1.inst, sa2.inst, this`rm, rm
      ensures Valid()
      ensures !sa1.continuous && !sa2.continuous
      ensures sa1.Peak() == Cleared && sa2.Peak() == Cleared
      ensures old(sa1.inst) == null ==> sa1.inst == null
      ensures old(sa1.inst) != null ==>
        (sa1.inst == null <==> At(old(sa1.inst).script, old(sa1.inst.cursor)).Done?)
        && (sa1.inst != null ==> sa1.inst == old(sa1.inst) && sa1.inst.open == old(sa1.inst.open))
      ensures old(sa2.inst) == null ==> sa2.inst == null
      ensures old(sa2.inst) != null ==>
        (sa2.inst == null <==> At(old(sa2.inst).script, old(sa2.inst.cursor)).Done?)
        && (sa2.inst != null ==> sa2.inst == old(sa2.inst) && sa2.inst.open == old(sa2.inst.open))
      ensures old(rm) == null ==> rm == null
      ensures old(rm) != null ==> (rm == null <==> !old(rm).closeRaises) && (rm != null ==> rm == old(rm))
    {
      sa1.continuous := false;
      sa2.continuous := false;
      if sa1.inst != null {
        var ok := sa1.inst.Close();
        if ok {
          sa1.inst := null;
        }
      }
      if sa2.inst != null {
        var ok := sa2.inst.Close();
        if ok {
          sa2.inst := null;
        }
      }
      if rm != null {
        var ok := rm.Close();
        if ok {
          rm := null;
        }
      }
      sa1.ResetPeak();
      sa2.ResetPeak();
    }

    /** `_reset_network` as evidently intended ("ready to reconnect"): every
        handle and the resource manager are forgotten whether or not their
        close raised, as `_on_closing` does. */
    method ResetNetwork()
      requires Valid()
      modifies sa1, sa2, sa1.inst, sa2.inst, this`rm, rm
      ensures Valid()
      ensures !sa1.continuous && !sa2.continuous
      ensures sa1.Peak() == Cleared && sa2.Peak() == Cleared
      ensures sa1.inst == null && sa2.inst == null && rm == null
      ensures old(sa1.inst) != null ==> old(sa1.inst).cursor == old(sa1.inst.cursor) + 1
      ensures old(sa2.inst) != null ==> old(sa2.inst).cursor == old(sa2.inst.cursor) + 1
    {
      sa1.continuous := false;
      sa2.continuous := false;
      if sa1.inst != null {
        var ok := sa1.inst.Close();
      }
      sa1.inst := null;
      if sa2.inst != null {
        var ok := sa2.inst.Close();
      }
      sa2.inst := null;
      if rm != null {
        var ok := rm.Close();
      }
      rm := null;
      sa1.ResetPeak();
      sa2.ResetPeak();
    }

    /** As written, a reset whose close of SA1's handle raised leaves the
        handle attached, so the next click on SA1's connect button only
        disconnects instead of connecting. */
    method ReconnectAfterFailedReset(ip: string, handle: Instrument?) returns (res: ConnectResult)
      requires Valid() && ip != []
      requires sa1.inst != null && At(sa1.inst.script, sa1.inst.cursor).Raised?
      modifies sa1, sa2, sa1.inst, sa2.inst, this`rm, rm, handle
      ensures Valid()
      ensures res == Disconnected
    {
      ResetNetworkAsWritten();
      res := sa1.Connect(ip, handle);
    }

    /** With the corrected reset, the next click on SA1's connect button
        always tries to connect. */
    method ReconnectAfterReset(ip: string, handle: Instrument?) returns (res: ConnectResult)
      requires Valid() && ip != []
      modifies sa1, sa2, sa1.inst, sa2.inst, this`rm, rm, handle
      ensures Valid()
      ensures res.Connected? || res == ConnectFailed
    {
      ResetNetwork();
      res := sa1.Connect(ip, handle);
    }

    /** `_on_closing`: both loop flags drop, then each handle and the
        resource manager are closed, a raise ignored, and forgotten. */
    method OnClosing()
      requires Valid()
      modifies sa1`continuous, sa2`continuous, sa1`inst, sa2`inst, sa1.inst, sa2.inst, this`rm, rm
      ensures Valid()
      ensures !sa1.continuous && !sa2.continuous
      ensures sa1.inst == null && sa2.inst == null && rm == null
      ensures old(sa1.inst) != null ==>
        old(sa1.inst).cursor == old(sa1.inst.cursor) + 1
        && (old(sa1.inst).open <==> old(sa1.inst.open) && At(old(sa1.inst).script, old(sa1.inst.cursor)).Raised?)
      ensures old(sa2.inst) != null ==>
        old(sa2.inst).cursor == old(sa2.inst.cursor) + 1
        && (old(sa2.inst).open <==> old(sa2.inst.open) && At(old(sa2.inst).script, old(sa2.inst.cursor)).Raised?)
      ensures old(rm) != null ==> (old(rm).open <==> old(rm.open) && old(rm).closeRaises)
    {
      sa1.continuous := false;
      sa2.continuous := false;
      if sa1.inst != null {
        var ok := sa1.inst.Close();
        sa1.inst := null;
      }
      if sa2.inst != null {
        var ok := sa2.inst.Close();
        sa2.inst := null;
      }
      if rm != null {
        var ok := rm.Close();
        rm := null;
      }
    }
  }
}

=== FILE: sweep.dfy ===
/** Taking one sweep from an analyser that is already configured: trigger
    it, wait for as long as it says a sweep takes, then query the point
    count, the frequency range and the trace data. */
module Sweep {
  import opened Results
  import opened Text
  import opened Scpi
  import opened TraceDecoder
  import opened SweepConfig

  /** The sweep time assumed when `:SWE:TIME?` cannot be read, in seconds. */
  const DefaultSweepTime: real := 1.5
  /** The shortest wait after a trigger, in seconds. */
  const MinimumWait: real := 1.5
  /** The margin on the reported sweep time: 10% for a single sweep, 20%
      in the continuous loop. */
  const SingleFactor: real := 1.1
  const ContinuousFactor: real := 1.2

  /** The sweep time from the reply to `:SWE:TIME?` (`None` when the query
      or the read raised), falling back to the default when the reply is
      not a number. */
  function SweepTime(reply: Option<string>): real {
    match reply
    case None => DefaultSweepTime
    case Some(text) =>
      match ParseFloat(text)
      case None => DefaultSweepTime
      case Some(st) => st
  }

  /** How long to wait for a sweep: the larger of the minimum wait and the
      sweep time with its margin. */
  function SettleWait(st: real, factor: real): (w: real)
    ensures w >= MinimumWait && w >= st * factor
    ensures w == MinimumWait || w == st * factor
  {
    if st * factor > MinimumWait then st * factor else MinimumWait
  }

  /** The wait always covers the sweep time the analyser reported. */
  lemma WaitCoversSweep(reply: Option<string>)
    requires reply.Some? && ParseFloat(reply.value).Some? && ParseFloat(reply.value).value >= 0.0
    ensures SettleWait(SweepTime(reply), SingleFactor) >= ParseFloat(reply.value).value
    ensures SettleWait(SweepTime(reply), ContinuousFactor) >= ParseFloat(reply.value).value
  {
  }

  /** An unreadable sweep time waits 1.65 s for a single sweep and 1.8 s in
      the continuous loop: the margin applies to the default too. */
  lemma UnreadableSweepTime(reply: Option<string>)
    requires reply.None? || ParseFloat(reply.value).None?
    ensures SettleWait(SweepTime(reply), SingleFactor) == 1.65
    ensures SettleWait(SweepTime(reply), ContinuousFactor) == 1.8
  {
  }

  /** The reply to a query whose write is at position `k` of the script:
      present when the write and the read after it both complete. */
  function QueryReply(script: seq<Outcome>, k: nat): Option<string> {
    if At(script, k).Done? && At(script, k + 1).Done? then Some(At(script, k + 1).text) else None
  }

  /** Operations a query takes: its write, and its read if the write
      completed. */
  function QueryLength(script: seq<Outcome>, k: nat): nat {
    if At(script, k).Done? then 2 else 1
  }

  /** A query: write it, then read the reply; `None` when either raises. */
  method Query(inst: Instrument, q: Command) returns (reply: Option<string>)
    modifies inst`log, inst`cursor
    ensures reply == QueryReply(inst.script, old(inst.cursor))
    ensures inst.log == old(inst.log) + [q]
    ensures inst.cursor == old(inst.cursor) + QueryLength(inst.script, old(inst.cursor))
  {
    reply := None;
    var ok := inst.Write(q);
    if ok {
      var text;
      ok, text := inst.Read();
      if ok {
        reply := Some(text);
      }
    }
  }

  /** The outcome of `_single_sweep` from position `c` of the script: a
      transport error if either trigger write raises, otherwise the wait. */
  function SingleSweepWait(script: seq<Outcome>, c: nat): (r: Result<real>)
    ensures r.Ok? <==> At(script, c).Done? && At(script, c + 1).Done?
    ensures r.Err? ==> r.error == TransportError
    ensures r.Ok? ==> r.value >= MinimumWait
  {
    if At(script, c).Raised? || At(script, c + 1).Raised? then Err(TransportError)
    else Ok(SettleWait(SweepTime(QueryReply(script, c + 2)), SingleFactor))
  }

  /** `_single_sweep`: continuous mode off, trigger, then ask for the sweep
      time; only the sweep-time exchange is guarded, so a failing trigger
      propagates. Returns how long the caller sleeps. */
  method SingleSweep(inst: Instrument) returns (r: Result<real>)
    modifies inst`log, inst`cursor
    ensures r == SingleSweepWait(inst.script, old(inst.cursor))
    ensures At(inst.script, old(inst.cursor)).Raised? ==>
      inst.log == old(inst.log) + [InitContOff] && inst.cursor == old(inst.cursor) + 1
    ensures At(inst.script, old(inst.cursor)).Done? && At(inst.script, old(inst.cursor) + 1).Raised? ==>
      inst.log == old(inst.log) + [InitContOff, Init] && inst.cursor == old(inst.cursor) + 2
    ensures r.Ok? ==>
      inst.log == old(inst.log) + [InitContOff, Init, SweepTimeQuery]
      && inst.cursor == old(inst.cursor) + 2 + QueryLength(inst.script, old(inst.cursor) + 2)
  {
    var ok := inst.Write(InitContOff);
    if !ok {
      return Err(TransportError);
    }
    ok := inst.Write(Init);
    if !ok {
      return Err(TransportError);
    }
    var reply := Query(inst, SweepTimeQuery);
    r := Ok(SettleWait(SweepTime(reply), SingleFactor));
  }

  /** A completed `_single_sweep` triggers exactly one sweep. */
  lemma SingleSweepInits(log: seq<Command>)
    ensures Inits(log + [InitContOff, Init, SweepTimeQuery]) == Inits(log) + 1
  {
    var w := [InitContOff, Init, SweepTimeQuery];
    InitsAppend(log, w);
    assert w[..2] == [InitContOff, Init];
    assert w[..2][..1] == [InitContOff];
    assert w[..2][..1][..0] == [];
    assert Inits([InitContOff]) == 0;
    assert Inits([InitContOff, Init]) == 1;
    assert Inits(w) == 1;
  }

  /** The writes of `_read_trace_ascii_block`, in order. */
  const TraceQueries: seq<Command> :=
    [SweepPointsQuery, FreqStartQuery, FreqStopQuery, TraceFormatAscii, TraceDataQuery]

  /** No trace query starts a sweep. */
  lemma TraceQueriesNoInit(log: seq<Command>, n: nat)
    requires n <= |TraceQueries|
    ensures Inits(log + TraceQueries[..n]) == Inits(log)
  {
    InitsAppend(log, TraceQueries[..n]);
    InitsNone(TraceQueries[..n]);
  }

  /** The trace read from position `c` of the script: the point-count
      query, the start and stop queries, the format write and the data
      query. A raise is a transport error, a reply that is not a number a
      `ValueError`. */
  function TraceExchange(script: seq<Outcome>, c: nat): (r: Result<Trace>)
    ensures r.Ok? ==> c + 9 <= |script| && |r.value.freqs| == |r.value.vals|
  {
    match QueryReply(script, c)
    case None => Err(TransportError)
    case Some(reply) =>
      match ParseInt(reply)
      case None => Err(ValueError)
      case Some(points) => StartExchange(script, c + 2, points)
  }

  /** The rest of the read once the point count is known. */
  function StartExchange(script: seq<Outcome>, c: nat, points: int): (r: Result<Trace>)
    ensures r.Ok? ==> c + 7 <= |script| && |r.value.freqs| == |r.value.vals|
  {
    match QueryReply(script, c)
    case None => Err(TransportError)
    case Some(reply) =>
      match ParseFloat(reply)
      case None => Err(ValueError)
      case Some(fStart) => StopExchange(script, c + 2, points, fStart)
  }

  /** The rest of the read once the start frequency is known. */
  function StopExchange(script: seq<Outcome>, c: nat, points: int, fStart: real): (r: Result<Trace>)
    ensures r.Ok? ==> c + 5 <= |script| && |r.value.freqs| == |r.value.vals|
  {
    match QueryReply(script, c)
    case None => Err(TransportError)
    case Some(reply) =>
      match ParseFloat(reply)
      case None => Err(ValueError)
      case Some(fStop) => DataExchange(script, c + 2, points, fStart, fStop)
  }

  /** The format write and the data query, decoded against the queried
      point count and range. */
  function DataExchange(script: seq<Outcome>, c: nat, points: int, fStart: real, fStop: real)
    : (r: Result<Trace>)
    ensures r.Ok? ==> c + 3 <= |script| && |r.value.freqs| == |r.value.vals|
  {
    if At(script, c).Raised? then Err(TransportError)
    else match QueryReply(script, c + 1)
      case None => Err(TransportError)
      case Some(raw) => DecodeTrace(raw, points, fStart, fStop)
  }

  /** Replies an analyser may send: a point count `int` accepts, start
      and stop frequencies `float` accepts, and amplitude texts framed as a
      block followed by a line end. They read back as those amplitudes on
      the evenly spaced axis between the two frequencies. */
  lemma TraceExchangeOfReplies(script: seq<Outcome>, c: nat, points: int, fStart: real, fStop: real,
                               pieces: seq<string>, vals: seq<real>, terminator: string)
    requires Encodes(pieces, vals) && |ValuesText(pieces)| < Pow10(9)
    requires ValuesText(pieces) == [] || !IsSpace(ValuesText(pieces)[|ValuesText(pieces)| - 1])
    requires IsBlank(terminator)
    requires forall j :: c <= j < c + 9 ==> At(script, j).Done?
    requires ParseInt(At(script, c + 1).text) == Some(points)
    requires ParseFloat(At(script, c + 3).text) == Some(fStart)
    requires ParseFloat(At(script, c + 5).text) == Some(fStop)
    requires At(script, c + 8).text == EncodeBlock(ValuesText(pieces)) + terminator
    ensures TraceExchange(script, c)
      == Ok(Trace(Linspace(fStart, fStop, |vals|), vals, |vals| != points))
  {
    assert At(script, c).Done? && At(script, c + 1).Done?;
    StartOfReplies(script, c + 2, points, fStart, fStop, pieces, vals, terminator);
  }

  lemma StartOfReplies(script: seq<Outcome>, c: nat, points: int, fStart: real, fStop: real,
                       pieces: seq<string>, vals: seq<real>, terminator: string)
    requires Encodes(pieces, vals) && |ValuesText(pieces)| < Pow10(9)
    requires ValuesText(pieces) == [] || !IsSpace(ValuesText(pieces)[|ValuesText(pieces)| - 1])
    requires IsBlank(terminator)
    requires forall j :: c <= j < c + 7 ==> At(script, j).Done?
    requires ParseFloat(At(script, c + 1).text) == Some(fStart)
    requires ParseFloat(At(script, c + 3).text) == Some(fStop)
    requires At(script, c + 6).text == EncodeBlock(ValuesText(pieces)) + terminator
    ensures StartExchange(script, c, points)
      == Ok(Trace(Linspace(fStart, fStop, |vals|), vals, |vals| != points))
  {
    assert At(script, c).Done? && At(script, c + 1).Done?;
    StopOfReplies(script, c + 2, points, fStart, fStop, pieces, vals, terminator);
  }

  lemma StopOfReplies(script: seq<Outcome>, c: nat, points: int, fStart: real, fStop: real,
                      pieces: seq<string>, vals: seq<real>, terminator: string)
    requires Encodes(pieces, vals) && |ValuesText(pieces)| < Pow10(9)
    requires ValuesText(pieces) == [] || !IsSpace(ValuesText(pieces)[|ValuesText(pieces)| - 1])
    requires IsBlank(terminator)
    requires forall j :: c <= j < c + 5 ==> At(script, j).Done?
    requires ParseFloat(At(script, c + 1).text) == Some(fStop)
    requires At(script, c + 4).text == EncodeBlock(ValuesText(pieces)) + terminator
    ensures StopExchange(script, c, points, fStart)
      == Ok(Trace(Linspace(fStart, fStop, |vals|), vals, |vals| != points))
  {
    assert At(script, c).Done? && At(script, c + 1).Done?;
    DataOfReplies(script, c + 2, points, fStart, fStop, pieces, vals, terminator);
  }

  lemma DataOfReplies(script: seq<Outcome>, c: nat, points: int, fStart: real, fStop: real,
                      pieces: seq<string>, vals: seq<real>, terminator: string)
    requires Encodes(pieces, vals) && |ValuesText(pieces)| < Pow10(9)
    requires ValuesText(pieces) == [] || !IsSpace(ValuesText(pieces)[|ValuesText(pieces)| - 1])
    requires IsBlank(terminator)
    requires At(script, c).Done? && At(script, c + 1).Done? && At(script, c + 2).Done?
    requires At(script, c + 2).text == EncodeBlock(ValuesText(pieces)) + terminator
    ensures DataExchange(script, c, points, fStart, fStop)
      == Ok(Trace(Linspace(fStart, fStop, |vals|), vals, |vals| != points))
  {
    assert QueryReply(script, c + 1) == Some(EncodeBlock(ValuesText(pieces)) + terminator);
    TraceRoundTrip(pieces, vals, terminator, points, fStart, fStop);
  }

  /** Each exchange, once its reply has been read and parsed, goes on
      with the next one. */
  lemma TraceExchangeStep(script: seq<Outcome>, c: nat, reply: string, points: int)
    requires QueryReply(script, c) == Some(reply) && ParseInt(reply) == Some(points)
    ensures TraceExchange(script, c) == StartExchange(script, c + 2, points)
  {
  }

  lemma StartExchangeStep(script: seq<Outcome>, c: nat, points: int, reply: string, fStart: real)
    requires QueryReply(script, c) == Some(reply) && ParseFloat(reply) == Some(fStart)
    ensures StartExchange(script, c, points) == StopExchange(script, c + 2, points, fStart)
  {
  }

  lemma StopExchangeStep(script: seq<Outcome>, c: nat, points: int, fStart: real, reply: string, fStop: real)
    requires QueryReply(script, c) == Some(reply) && ParseFloat(reply) == Some(fStop)
    ensures StopExchange(script, c, points, fStart) == DataExchange(script, c + 2, points, fStart, fStop)
  {
  }

  /** A point-count query that raises ends the read with a transport
      error, and a point-count reply that is not an integer with a
      `ValueError`, before the frequencies are queried. */
  lemma BadPointCount(script: seq<Outcome>, c: nat)
    ensures QueryReply(script, c).None? ==> TraceExchange(script, c) == Err(TransportError)
    ensures QueryReply(script, c).Some? && ParseInt(QueryReply(script, c).value).None? ==>
      TraceExchange(script, c) == Err(ValueError)
  {
  }

  /** Likewise for the start frequency... */
  lemma BadStart(script: seq<Outcome>, c: nat, points: int)
    ensures QueryReply(script, c).None? ==> StartExchange(script, c, points) == Err(TransportError)
    ensures QueryReply(script, c).Some? && ParseFloat(QueryReply(script, c).value).None? ==>
      StartExchange(script, c, points) == Err(ValueError)
  {
  }

  /** ...and for the stop frequency. */
  lemma BadStop(script: seq<Outcome>, c: nat, points: int, fStart: real)
    ensures QueryReply(script, c).None? ==> StopExchange(script, c, points, fStart) == Err(TransportError)
    ensures QueryReply(script, c).Some? && ParseFloat(QueryReply(script, c).value).None? ==>
      StopExchange(script, c, points, fStart) == Err(ValueError)
  {
  }

  /** `_read_trace_ascii_block`: the queries go out until one raises or a
      reply does not parse; the result is `TraceExchange` of the script. */
  method ReadTrace(inst: Instrument) returns (r: Result<Trace>)
    modifies inst`log, inst`cursor
    ensures r == TraceExchange(inst.script, old(inst.cursor))
    ensures old(inst.cursor) < inst.cursor <= old(inst.cursor) + 9
    ensures old(inst.log) < inst.log <= old(inst.log) + TraceQueries
    ensures r.Ok? ==>
      inst.log == old(inst.log) + TraceQueries && inst.cursor == old(inst.cursor) + 9
  {
    ghost var c, s := inst.cursor, inst.script;
    assert TraceQueries == [SweepPointsQuery] + TraceQueries[1..];
    var reply := Query(inst, SweepPointsQuery);
    if reply.None? {
      BadPointCount(s, c);
      return Err(TransportError);
    }
    var points := ParseInt(reply.value);
    if points.None? {
      BadPointCount(s, c);
      return Err(ValueError);
    }
    TraceExchangeStep(s, c, reply.value, points.value);
    r := ReadRange(inst, points.value);
  }

  /** The start, stop and data exchanges of `_read_trace_ascii_block`. */
  method ReadRange(inst: Instrument, points: int) returns (r: Result<Trace>)
    modifies inst`log, inst`cursor
    ensures r == StartExchange(inst.script, old(inst.cursor), points)
    ensures old(inst.cursor) < inst.cursor <= old(inst.cursor) + 7
    ensures old(inst.log) < inst.log <= old(inst.log) + TraceQueries[1..]
    ensures r.Ok? ==>
      inst.log == old(inst.log) + TraceQueries[1..] && inst.cursor == old(inst.cursor) + 7
  {
    ghost var c, s := inst.cursor, inst.script;
    assert TraceQueries[1..] == [FreqStartQuery] + TraceQueries[2..];
    var reply := Query(inst, FreqStartQuery);
    if reply.None? {
      BadStart(s, c, points);
      return Err(TransportError);
    }
    var fStart := ParseFloat(reply.value);
    if fStart.None? {
      BadStart(s, c, points);
      return Err(ValueError);
    }
    StartExchangeStep(s, c, points, reply.value, fStart.value);
    r := ReadStop(inst, points, fStart.value);
  }

  /** The stop and data exchanges of `_read_trace_ascii_block`. */
  method ReadStop(inst: Instrument, points: int, fStart: real) returns (r: Result<Trace>)
    modifies inst`log, inst`cursor
    ensures r == StopExchange(inst.script, old(inst.cursor), points, fStart)
    ensures old(inst.cursor) < inst.cursor <= old(inst.cursor) + 5
    ensures old(inst.log) < inst.log <= old(inst.log) + TraceQueries[2..]
    ensures r.Ok? ==>
      inst.log == old(inst.log) + TraceQueries[2..] && inst.cursor == old(inst.cursor) + 5
  {
    ghost var c, s := inst.cursor, inst.script;
    assert TraceQueries[2..] == [FreqStopQuery] + TraceQueries[3..];
    var reply := Query(inst, FreqStopQuery);
    if reply.None? {
      BadStop(s, c, points, fStart);
      return Err(TransportError);
    }
    var fStop := ParseFloat(reply.value);
    if fStop.None? {
      BadStop(s, c, points, fStart);
      return Err(ValueError);
    }
    StopExchangeStep(s, c, points, fStart, reply.value, fStop.value);
    r := ReadData(inst, points, fStart, fStop.value);
  }

  /** The format write and the data query of `_read_trace_ascii_block`. */
  method ReadData(inst: Instrument, points: int, fStart: real, fStop: real) returns (r: Result<Trace>)
    modifies inst`log, inst`cursor
    ensures r == DataExchange(inst.script, old(inst.cursor), points, fStart, fStop)
    ensures old(inst.cursor) < inst.cursor <= old(inst.cursor) + 3
    ensures old(inst.log) < inst.log <= old(inst.log) + TraceQueries[3..]
    ensures r.Ok? ==>
      inst.log == old(inst.log) + TraceQueries[3..] && inst.cursor == old(inst.cursor) + 3
  {
    assert TraceQueries[3..] == [TraceFormatAscii, TraceDataQuery];
    var ok := inst.Write(TraceFormatAscii);
    if !ok {
      return Err(TransportError);
    }
    var reply := Query(inst, TraceDataQuery);
    if reply.None? {
      return Err(TransportError);
    }
    r := DecodeTrace(reply.value, points, fStart, fStop);
  }

  /** A trace read writes no `Init`. */
  lemma TraceReadNoInit(before: seq<Command>, after: seq<Command>)
    requires before <= after <= before + TraceQueries
    ensures Inits(after) == Inits(before)
  {
    var n := |after| - |before|;
    assert after == before + TraceQueries[..n];
    TraceQueriesNoInit(before, n);
  }

  /** One iteration of the continuous loop from position `c` of the
      script: the trigger, the sweep-time query (whose reply may fail to
      read without ending the loop), then the trace read. */
  function LoopIteration(script: seq<Outcome>, c: nat): (r: Result<Trace>)
    ensures r.Ok? ==> c + 12 <= |script| && |r.value.freqs| == |r.value.vals|
  {
    if At(script, c).Raised? || At(script, c + 1).Raised? then Err(TransportError)
    else TraceExchange(script, c + 3)
  }

  /** The reply to `:SWE:TIME?` in the continuous loop, read at position
      `k`. */
  function LoopSweepTimeReply(script: seq<Outcome>, k: nat): Option<string> {
    if At(script, k).Done? then Some(At(script, k).text) else None
  }

  /** The body of the continuous loop in `do_continuous`. Returns the trace
      to post and how long the loop slept. */
  method LoopSweep(inst: Instrument) returns (r: Result<Trace>, wait: real)
    modifies inst`log, inst`cursor
    ensures r == LoopIteration(inst.script, old(inst.cursor))
    ensures At(inst.script, old(inst.cursor)).Done? && At(inst.script, old(inst.cursor) + 1).Done? ==>
      wait == SettleWait(SweepTime(LoopSweepTimeReply(inst.script, old(inst.cursor) + 2)),
                         ContinuousFactor)
    ensures wait >= MinimumWait
    ensures old(inst.cursor) < inst.cursor
    ensures r.Ok? ==> inst.cursor == old(inst.cursor) + 12
    ensures old(inst.log) < inst.log && inst.log[|old(inst.log)|] == Init
    ensures Inits(inst.log) == Inits(old(inst.log)) + 1
  {
    var ok;
    ok, wait := LoopTrigger(inst);
    if !ok {
      return Err(TransportError), wait;
    }
    ghost var log2 := inst.log;
    r := ReadTrace(inst);
    TraceReadNoInit(log2, inst.log);
  }

  /** The start of the continuous loop's body: the trigger, then the
      sweep-time query and its reply, which sets the wait. `ok` is false
      when one of the two writes raised. */
  method LoopTrigger(inst: Instrument) returns (ok: bool, wait: real)
    modifies inst`log, inst`cursor
    ensures ok <==> At(inst.script, old(inst.cursor)).Done? && At(inst.script, old(inst.cursor) + 1).Done?
    ensures ok ==> wait == SettleWait(SweepTime(LoopSweepTimeReply(inst.script, old(inst.cursor) + 2)),
                                      ContinuousFactor)
    ensures wait >= MinimumWait
    ensures ok ==> inst.cursor == old(inst.cursor) + 3 && inst.log == old(inst.log) + [Init, SweepTimeQuery]
    ensures old(inst.cursor) < inst.cursor
    ensures old(inst.log) < inst.log && inst.log[|old(inst.log)|] == Init
    ensures Inits(inst.log) == Inits(old(inst.log)) + 1
  {
    wait := MinimumWait;
    ghost var log0 := inst.log;
    ok := inst.Write(Init);
    InitsAppendInit(log0);
    if !ok {
      return;
    }
    ghost var log1 := inst.log;
    ok := inst.Write(SweepTimeQuery);
    InitsAppendOther(log1, SweepTimeQuery);
    if !ok {
      return;
    }
    var read, text := inst.Read();
    wait := SettleWait(SweepTime(if read then Some(text) else None), ContinuousFactor);
  }

  /** `LoopSweep` as the loop sees it: whether it produced a trace to post. */
  method LoopStep(inst: Instrument) returns (trace: Option<Trace>)
    modifies inst`log, inst`cursor
    ensures trace.Some? <==> LoopIteration(inst.script, old(inst.cursor)).Ok?
    ensures trace.Some? ==> trace.value == LoopIteration(inst.script, old(inst.cursor)).value
    ensures old(inst.cursor) < inst.cursor
    ensures trace.Some? ==> inst.cursor <= |inst.script| && |trace.value.freqs| == |trace.value.vals|
    ensures old(inst.log) < inst.log
    ensures Inits(inst.log) == Inits(old(inst.log)) + 1
  {
    var r, wait := LoopSweep(inst);
    trace := if r.Ok? then Some(r.value) else None;
  }

  /** `_single_sweep` followed by `_read_trace_ascii_block` from position
      `c` of the script: a trigger write that raises ends the run before
      the read; otherwise the read starts once the sweep-time exchange is
      over. */
  function SweepExchange(script: seq<Outcome>, c: nat): Result<Trace> {
    match SingleSweepWait(script, c)
    case Err(e) => Err(e)
    case Ok(_) => TraceExchange(script, c + 2 + QueryLength(script, c + 2))
  }

  /** A run whose trigger failed has that failure as its outcome, and a
      run whose trigger went through has the trace read after the
      sweep-time exchange as its outcome. */
  lemma SweepOutcome(script: seq<Outcome>, c: nat, r: Result<Trace>)
    requires SingleSweepWait(script, c).Err? ==> r == Err(SingleSweepWait(script, c).error)
    requires SingleSweepWait(script, c).Ok? ==>
      r == TraceExchange(script, c + 2 + QueryLength(script, c + 2))
    ensures r == SweepExchange(script, c)
  {
  }

  /** The log of a completed sweep and read: one more `:INIT`, ending with
      the trace queries. */
  lemma SweepThenReadLog(log0: seq<Command>, log2: seq<Command>, log: seq<Command>)
    requires log2 == log0 + [InitContOff, Init, SweepTimeQuery] && log == log2 + TraceQueries
    ensures log0 <= log && Inits(log) == Inits(log0) + 1
    ensures |log| >= |TraceQueries| && log[|log| - |TraceQueries|..] == TraceQueries
  {
    SingleSweepInits(log0);
    TraceReadNoInit(log2, log);
  }

  /** The sweep and the read of `do_sweep`: `_single_sweep`, then, unless
      it raised, `_read_trace_ascii_block`. A completed run triggered
      exactly one sweep and ended with the trace queries, and its trace is
      the one read from the last nine script entries. */
  method SweepAndRead(inst: Instrument) returns (r: Result<Trace>)
    modifies inst`log, inst`cursor
    ensures SingleSweepWait(inst.script, old(inst.cursor)).Err? ==>
      r == Err(SingleSweepWait(inst.script, old(inst.cursor)).error)
    ensures SingleSweepWait(inst.script, old(inst.cursor)).Ok? ==>
      r == TraceExchange(inst.script, old(inst.cursor) + 2 + QueryLength(inst.script, old(inst.cursor) + 2))
    ensures old(inst.log) <= inst.log
    ensures r.Ok? ==>
      old(inst.cursor) + 9 <= inst.cursor && r == TraceExchange(inst.script, inst.cursor - 9)
    ensures r.Ok? ==>
      |r.value.freqs| == |r.value.vals|
      && Inits(inst.log) == Inits(old(inst.log)) + 1
      && |inst.log| >= |TraceQueries|
      && inst.log[|inst.log| - |TraceQueries|..] == TraceQueries
    ensures r == SweepExchange(inst.script, old(inst.cursor))
  {
    var wait := SingleSweep(inst);
    if wait.Err? {
      r := Err(wait.error);
      SweepOutcome(inst.script, old(inst.cursor), r);
      return;
    }
    ghost var log2, c2 := inst.log, inst.cursor;
    assert c2 == old(inst.cursor) + 2 + QueryLength(inst.script, old(inst.cursor) + 2);
    r := ReadTrace(inst);
    if r.Ok? {
      assert inst.cursor - 9 == c2;
      SweepThenReadLog(old(inst.log), log2, inst.log);
    }
    SweepOutcome(inst.script, old(inst.cursor), r);
  }

  /** A sweep that follows the configuration writes `w`, taking the log from
      `log0` to `log` and the cursor from `c0` to `c` with result `r`: the
      writes attempted before the first one that raised went out in order,
      the result is exactly the single sweep and trace read that follow them
      (a trigger failure, or the trace exchange), and a trace that was read
      came from the last nine script entries. */
  predicate SweptAfter(script: seq<Outcome>, w: seq<Command>, log0: seq<Command>, c0: nat,
                       log: seq<Command>, c: nat, r: Result<Trace>)
  {
    var n := Attempted(script, c0, |w|);
    log0 + w[..n] <= log && r == SweepExchange(script, c0 + n)
    && (r.Ok? ==> c0 + 9 <= c && r == TraceExchange(script, c - 9))
  }

  /** `do_sweep` once its entries have been read: configure, then the
      sweep and the read. The configuration writes go out as `Configure`
      sends them, and the result is the sweep and read that follow them. */
  method ConfiguredSweep(inst: Instrument, startMhz: real, stopMhz: real, points: int,
                         bwRes: string, bwVid: string) returns (r: Result<Trace>)
    modifies inst`log, inst`cursor
    ensures var w := PlannedWrites(startMhz, stopMhz, points, bwRes, bwVid);
      var n := Attempted(inst.script, old(inst.cursor), |w|);
      old(inst.log) + w[..n] <= inst.log && r == SweepExchange(inst.script, old(inst.cursor) + n)
    ensures r.Ok? ==>
      old(inst.cursor) + 9 <= inst.cursor && r == TraceExchange(inst.script, inst.cursor - 9)
    // the two clauses above, gathered for callers
    ensures SweptAfter(inst.script, PlannedWrites(startMhz, stopMhz, points, bwRes, bwVid),
                       old(inst.log), old(inst.cursor), inst.log, inst.cursor, r)
    ensures r.Ok? ==>
      |r.value.freqs| == |r.value.vals|
      && Inits(inst.log) == Inits(old(inst.log)) + 1
      && |inst.log| >= |TraceQueries|
      && inst.log[|inst.log| - |TraceQueries|..] == TraceQueries
  {
    ghost var w := PlannedWrites(startMhz, stopMhz, points, bwRes, bwVid);
    ghost var n := Attempted(inst.script, inst.cursor, |w|);
    Configure(inst, startMhz, stopMhz, points, bwRes, bwVid);
    ghost var log1, c1 := inst.log, inst.cursor;
    assert log1 == old(inst.log) + w[..n] && c1 == old(inst.cursor) + n;
    r := SweepAndRead(inst);
    assert r == SweepExchange(inst.script, c1);
    assert log1 <= inst.log;
  }

}

=== FILE: text.dfy ===
/** The pieces of Python's string handling that the viewer's core leans on:
    `str.strip()`, slicing with out-of-range and negative bounds,
    `str.split(",")`, `str.replace`, `int(...)` and `float(...)`.
    Strings are `seq<char>`; only ASCII whitespace and ASCII digits are
    recognised. */
module Text {
  import opened Results

  // ---------------------------------------------------------------------
  // Whitespace and strip()

  /** The ASCII characters for which Python's `str.isspace()` holds:
      tab, line feed, vertical tab, form feed, carriage return,
      the four separators 0x1C-0x1F and the space. */
  predicate IsSpace(c: char) {
    c == ' ' || ('\t' <= c <= '\r') || ((28 as char) <= c <= (31 as char))
  }

  predicate IsBlank(s: string) {
    forall i :: 0 <= i < |s| ==> IsSpace(s[i])
  }

  /** Number of whitespace characters at the start of `s`. */
  function LeadingSpaces(s: string): (n: nat)
    ensures n <= |s|
    ensures forall i :: 0 <= i < n ==> IsSpace(s[i])
    ensures n < |s| ==> !IsSpace(s[n])
  {
    if |s| > 0 && IsSpace(s[0]) then 1 + LeadingSpaces(s[1..]) else 0
  }

  /** Python's `s.strip()`: `s` without its leading and trailing
      whitespace, taken off one character at a time. */
  function Strip(s: string): (r: string)
    ensures |r| <= |s|
    ensures r == [] || (!IsSpace(r[0]) && !IsSpace(r[|r| - 1]))
    ensures r == [] <==> IsBlank(s)
    ensures s == [] || (!IsSpace(s[0]) && !IsSpace(s[|s| - 1])) ==> r == s
    decreases |s|
  {
    if |s| > 0 && IsSpace(s[0]) then
      var r := Strip(s[1..]);
      assert IsBlank(s[1..]) ==> IsBlank(s) by {
        assert forall i :: 1 <= i < |s| ==> s[i] == s[1..][i - 1];
      }
      r
    else if |s| > 0 && IsSpace(s[|s| - 1]) then
      var r := Strip(s[..|s| - 1]);
      assert IsBlank(s[..|s| - 1]) ==> IsBlank(s) by {
        assert forall i :: 0 <= i < |s| - 1 ==> s[i] == s[..|s| - 1][i];
      }
      r
    else s
  }

  /** `strip()` removes exactly the whitespace run at the start and the
      whitespace run at the end: what remains is the interior of `s` from
      its first non-whitespace character on, untouched. */
  lemma {:induction false} StripExact(s: string)
    ensures LeadingSpaces(s) + |Strip(s)| <= |s|
    ensures Strip(s) == s[LeadingSpaces(s)..LeadingSpaces(s) + |Strip(s)|]
    ensures IsBlank(s[..LeadingSpaces(s)])
    ensures IsBlank(s[LeadingSpaces(s) + |Strip(s)|..])
    decreases |s|, 1
  {
    if |s| > 0 && IsSpace(s[0]) {
      StripExactFront(s);
    } else if |s| > 0 && IsSpace(s[|s| - 1]) {
      StripExactBack(s);
    } else {
      assert LeadingSpaces(s) == 0 && Strip(s) == s;
    }
  }

  /** `StripExact` when `s` starts with whitespace. */
  lemma {:induction false} StripExactFront(s: string)
    requires |s| > 0 && IsSpace(s[0])
    ensures LeadingSpaces(s) + |Strip(s)| <= |s|
    ensures Strip(s) == s[LeadingSpaces(s)..LeadingSpaces(s) + |Strip(s)|]
    ensures IsBlank(s[..LeadingSpaces(s)])
    ensures IsBlank(s[LeadingSpaces(s) + |Strip(s)|..])
    decreases |s|, 0
  {
    var a, r, t := LeadingSpaces(s), Strip(s), s[1..];
    StripExact(t);
    assert r == t[a - 1..a - 1 + |r|];
    BlankEdges(s, a, |r|);
  }

  /** `StripExact` when `s` ends, but does not start, with whitespace. */
  lemma {:induction false} StripExactBack(s: string)
    requires |s| > 0 && !IsSpace(s[0]) && IsSpace(s[|s| - 1])
    ensures LeadingSpaces(s) + |Strip(s)| <= |s|
    ensures Strip(s) == s[LeadingSpaces(s)..LeadingSpaces(s) + |Strip(s)|]
    ensures IsBlank(s[..LeadingSpaces(s)])
    ensures IsBlank(s[LeadingSpaces(s) + |Strip(s)|..])
    decreases |s|, 0
  {
    var r, t := Strip(s), s[..|s| - 1];
    StripExact(t);
    assert LeadingSpaces(s) == 0 && LeadingSpaces(t) == 0;
    assert r == t[..|r|];
    assert forall i :: |r| <= i < |t| ==> t[i] == s[i];
    BlankEdges(s, 0, |r|);
  }

  /** Every character of `s` that is not whitespace survives `strip()`. */
  lemma StripKeeps(s: string, j: nat)
    requires j < |s| && !IsSpace(s[j])
    ensures s[j] in Strip(s)
  {
    var a, r := LeadingSpaces(s), Strip(s);
    StripExact(s);
    assert forall i :: 0 <= i < a ==> s[..a][i] == s[i];
    assert forall i :: a + |r| <= i < |s| ==> s[a + |r|..][i - a - |r|] == s[i];
    assert a <= j < a + |r|;
    assert r[j - a] == s[j];
  }

  /** The whitespace runs that `strip()` drops, seen as slices of `s`. */
  lemma BlankEdges(s: string, a: nat, m: nat)
    requires a + m <= |s|
    requires forall i :: 0 <= i < a ==> IsSpace(s[i])
    requires forall i :: a + m <= i < |s| ==> IsSpace(s[i])
    ensures IsBlank(s[..a]) && IsBlank(s[a + m..])
  {
    assert forall j :: 0 <= j < a ==> s[..a][j] == s[j];
    var u := s[a + m..];
    assert forall j :: 0 <= j < |u| ==> u[j] == s[a + m + j];
  }

  /** Text that starts with a non-whitespace character keeps it first. */
  lemma {:induction false} StripFirst(s: string)
    requires |s| > 0 && !IsSpace(s[0])
    ensures |Strip(s)| > 0 && Strip(s)[0] == s[0]
    decreases |s|
  {
    if IsSpace(s[|s| - 1]) {
      var t := s[..|s| - 1];
      assert t[0] == s[0];
      StripFirst(t);
    }
  }

  /** Whitespace after text whose edges are not whitespace is all that
      `strip()` removes, as with the line terminator after a reply. */
  lemma {:induction false} StripBlankSuffix(s: string, w: string)
    requires |s| > 0 && !IsSpace(s[0]) && !IsSpace(s[|s| - 1])
    requires IsBlank(w)
    ensures Strip(s + w) == s
    decreases |w|
  {
    if w == [] {
      assert s + w == s;
    } else {
      var v := w[..|w| - 1];
      assert (s + w)[0] == s[0];
      assert (s + w)[..|s + w| - 1] == s + v;
      StripBlankSuffix(s, v);
    }
  }

  // ---------------------------------------------------------------------
  // Slicing with Python's bounds

  /** Where Python puts a slice bound `i` on a sequence of length `n`:
      negative bounds count from the end, and every bound is clamped to
      `0..n`. */
  function SliceBound(n: nat, i: int): (b: nat)
    ensures b <= n
    ensures 0 <= i <= n ==> b == i
    ensures i > n ==> b == n
  {
    if i < 0 then (if n + i < 0 then 0 else n + i)
    else if i > n then n
    else i
  }

  /** Python's `s[lo:hi]`, which never raises: bounds are normalised and
      an empty range gives the empty string. */
  function PySlice(s: string, lo: int, hi: int): (r: string)
    ensures |r| <= |s|
    ensures 0 <= lo <= hi <= |s| ==> r == s[lo..hi]
  {
    var a, b := SliceBound(|s|, lo), SliceBound(|s|, hi);
    if a < b then s[a..b] else []
  }

  /** Out-of-range slice bounds: an upper bound past the end stops at the
      end, a negative upper bound counts from the end, and a range that is
      empty once normalised gives the empty string. */
  lemma PySliceClamps(s: string, lo: int, hi: int)
    ensures 0 <= lo <= |s| <= hi ==> PySlice(s, lo, hi) == s[lo..]
    ensures hi < 0 && 0 <= lo <= |s| + hi ==> PySlice(s, lo, hi) == s[lo..|s| + hi]
    ensures 0 <= hi <= lo || hi <= -|s| ==> PySlice(s, lo, hi) == []
    ensures 0 <= lo && (|s| <= lo || (hi < 0 && |s| + hi <= lo)) ==> PySlice(s, lo, hi) == []
  {
  }

  // ---------------------------------------------------------------------
  // Searching, replacing, splitting

  /** The first index of `c` in `s`, or `|s|` when `c` does not occur. */
  function IndexOf(s: string, c: char): (i: nat)
    ensures i <= |s|
    ensures i < |s| ==> s[i] == c
    ensures forall j :: 0 <= j < i ==> s[j] != c
  {
    if s == [] then 0
    else if s[0] == c then 0
    else 1 + IndexOf(s[1..], c)
  }

  /** Python's `s.replace(c, sub)` for a one-character pattern `c`. */
  function Replace(s: string, c: char, sub: string): (r: string)
  {
    if s == [] then []
    else (if s[0] == c then sub else [s[0]]) + Replace(s[1..], c, sub)
  }

  /** Text without the pattern is left as it is. */
  lemma {:induction false} ReplaceAbsent(s: string, c: char, sub: string)
    requires forall i :: 0 <= i < |s| ==> s[i] != c
    ensures Replace(s, c, sub) == s
  {
    if s != [] {
      ReplaceAbsent(s[1..], c, sub);
    }
  }

  /** After replacing, the pattern is gone unless the replacement holds it. */
  lemma {:induction false} ReplaceRemoves(s: string, c: char, sub: string)
    requires forall i :: 0 <= i < |sub| ==> sub[i] != c
    ensures forall i :: 0 <= i < |Replace(s, c, sub)| ==> Replace(s, c, sub)[i] != c
  {
    if s != [] {
      ReplaceRemoves(s[1..], c, sub);
      var head := if s[0] == c then sub else [s[0]];
      var r := Replace(s, c, sub);
      assert r == head + Replace(s[1..], c, sub);
      forall i | 0 <= i < |r| ensures r[i] != c {
        if i >= |head| {
          assert r[i] == Replace(s[1..], c, sub)[i - |head|];
        }
      }
    }
  }

  lemma {:induction false} ReplaceAppend(a: string, b: string, c: char, sub: string)
    ensures Replace(a + b, c, sub) == Replace(a, c, sub) + Replace(b, c, sub)
  {
    if a != [] {
      assert (a + b)[1..] == a[1..] + b;
      ReplaceAppend(a[1..], b, c, sub);
    } else {
      assert a + b == b;
    }
  }

  /** Python's `s.split(sep)` for a one-character separator: the pieces
      between separators, so never fewer than one (`"".split(",")` is `[""]`). */
  function Split(s: string, sep: char): (parts: seq<string>)
    ensures |parts| >= 1
    ensures forall i :: 0 <= i < |parts| ==> sep !in parts[i]
    decreases |s|
  {
    var i := IndexOf(s, sep);
    if i == |s| then [s] else [s[..i]] + Split(s[i + 1..], sep)
  }

  /** Python's `sep.join(parts)`. */
  function Join(parts: seq<string>, sep: char): string
    requires |parts| >= 1
  {
    if |parts| == 1 then parts[0] else parts[0] + [sep] + Join(parts[1..], sep)
  }

  /** Splitting what was joined gives back the pieces, provided no piece
      contains the separator. */
  lemma {:induction false} SplitJoin(parts: seq<string>, sep: char)
    requires |parts| >= 1
    requires forall i :: 0 <= i < |parts| ==> sep !in parts[i]
    ensures Split(Join(parts, sep), sep) == parts
  {
    if |parts| > 1 {
      var s := Join(parts, sep);
      var rest := Join(parts[1..], sep);
      assert s == parts[0] + [sep] + rest;
      assert s[|parts[0]|] == sep;
      assert forall j :: 0 <= j < |parts[0]| ==> s[j] == parts[0][j];
      var i := IndexOf(s, sep);
      assert i == |parts[0]|;
      assert s[..i] == parts[0];
      assert s[i + 1..] == rest;
      SplitJoin(parts[1..], sep);
    }
  }

  /** Joining the pieces of a split gives back the original text. */
  lemma {:induction false} JoinSplit(s: string, sep: char)
    ensures Join(Split(s, sep), sep) == s
    decreases |s|
  {
    var i := IndexOf(s, sep);
    if i < |s| {
      var head, rest := s[..i], s[i + 1..];
      var tail := Split(rest, sep);
      JoinSplit(rest, sep);
      assert Split(s, sep) == [head] + tail;
      JoinCons(head, tail, sep);
      assert s == head + [sep] + rest;
    } else {
      assert Split(s, sep) == [s];
    }
  }

  lemma JoinCons(head: string, tail: seq<string>, sep: char)
    requires |tail| >= 1
    ensures Join([head] + tail, sep) == head + [sep] + Join(tail, sep)
  {
    assert ([head] + tail)[1..] == tail;
  }

  // ---------------------------------------------------------------------
  // Digits and decimal text

  predicate IsDigit(c: char) {
    '0' <= c <= '9'
  }

  predicate AllDigits(s: string) {
    forall i :: 0 <= i < |s| ==> IsDigit(s[i])
  }

  function DigitValue(c: char): nat
    requires IsDigit(c)
  {
    c as int - '0' as int
  }

  function DigitChar(d: nat): (c: char)
    requires d < 10
    ensures IsDigit(c) && DigitValue(c) == d
  {
    ('0' as int + d) as char
  }

  /** The value of a string of decimal digits (0 for the empty string). */
  function DigitsValue(s: string): nat
    requires AllDigits(s)
  {
    if s == [] then 0 else DigitsValue(s[..|s| - 1]) * 10 + DigitValue(s[|s| - 1])
  }

  function Pow10(k: nat): (p: nat)
    ensures p >= 1
  {
    if k == 0 then 1 else 10 * Pow10(k - 1)
  }

  /** Decimal text of a natural number, as Python's `str(n)` writes it. */
  function NatText(n: nat): (s: string)
    ensures 1 <= |s| && AllDigits(s)
    ensures DigitsValue(s) == n
    ensures n >= 10 ==> s[0] != '0'
  {
    if n < 10 then [DigitChar(n)]
    else
      var s := NatText(n / 10) + [DigitChar(n % 10)];
      assert s[..|s| - 1] == NatText(n / 10);
      s
  }

  /** A number below 10^k needs at most k digits. */
  lemma {:induction false} NatTextLength(n: nat, k: nat)
    requires 1 <= k && n < Pow10(k)
    ensures |NatText(n)| <= k
  {
    if n >= 10 {
      assert Pow10(1) == 10;
      assert k >= 2;
      assert n / 10 < Pow10(k - 1);
      NatTextLength(n / 10, k - 1);
    }
  }

  /** Decimal text of an integer: a minus sign before negative values. */
  function IntText(i: int): (s: string)
    ensures |s| >= 1 && ',' !in s && !IsBlank(s)
    ensures (s[0] == '-' || IsDigit(s[0])) && IsDigit(s[|s| - 1])
  {
    var s := if i < 0 then "-" + NatText(-i) else NatText(i);
    assert !IsSpace(s[|s| - 1]);
    s
  }

  // ---------------------------------------------------------------------
  // int(...) and float(...)

  /** An optional leading '+' or '-': whether it was '-', and the rest. */
  function SplitSign(t: string): (r: (bool, string))
    ensures r.1 == t || (|t| >= 1 && r.1 == t[1..] && (t[0] == '+' || t[0] == '-'))
    ensures r.0 <==> (|t| >= 1 && t[0] == '-')
  {
    if |t| > 0 && (t[0] == '+' || t[0] == '-') then (t[0] == '-', t[1..]) else (false, t)
  }

  /** Python's `int(s)` restricted to ASCII: surrounding whitespace, an
      optional sign, then at least one decimal digit. */
  function ParseInt(s: string): (r: Option<int>)
    ensures r.Some? ==> !IsBlank(s)
  {
    var (neg, body) := SplitSign(Strip(s));
    if |body| > 0 && AllDigits(body) then
      Some(if neg then -(DigitsValue(body) as int) else DigitsValue(body) as int)
    else None
  }

  /** The first index of an exponent marker 'e' or 'E', or `|s|`. */
  function IndexOfExponent(s: string): (i: nat)
    ensures i <= |s|
    ensures i < |s| ==> s[i] == 'e' || s[i] == 'E'
    ensures forall j :: 0 <= j < i ==> s[j] != 'e' && s[j] != 'E'
  {
    if s == [] then 0
    else if s[0] == 'e' || s[0] == 'E' then 0
    else 1 + IndexOfExponent(s[1..])
  }

  /** `v * 10^x` for a signed exponent `x`. */
  function Scale(v: real, x: int): (r: real)
    ensures x == 0 ==> r == v
    decreases if x >= 0 then x else -x
  {
    if x == 0 then v
    else if x > 0 then Scale(v, x - 1) * 10.0
    else Scale(v, x + 1) / 10.0
  }

  /** The value of the digits after a decimal point: `0.d1d2...` is
      `(d1 + 0.d2...) / 10`. */
  function Fraction(fp: string): (r: real)
    requires AllDigits(fp)
    ensures fp == [] ==> r == 0.0
  {
    if fp == [] then 0.0 else (DigitValue(fp[0]) as real + Fraction(fp[1..])) / 10.0
  }

  /** The number written `ip.fp`. */
  function Decimal(ip: string, fp: string): real
    requires AllDigits(ip) && AllDigits(fp)
  {
    DigitsValue(ip) as real + Fraction(fp)
  }

  /** Digits with at most one '.', at least one digit in all. */
  function ParseMantissa(m: string): Option<real> {
    var d := IndexOf(m, '.');
    var ip := m[..d];
    var fp := if d < |m| then m[d + 1..] else "";
    if AllDigits(ip) && AllDigits(fp) && |ip| + |fp| > 0 then
      Some(Decimal(ip, fp))
    else None
  }

  /** An exponent after 'e': an optional sign and at least one digit. */
  function ParseExponent(x: string): Option<int> {
    var (neg, body) := SplitSign(x);
    if |body| > 0 && AllDigits(body) then
      Some(if neg then -(DigitsValue(body) as int) else DigitsValue(body) as int)
    else None
  }

  /** An unsigned decimal number: a mantissa, then optionally 'e' or 'E'
      and an exponent. */
  function ParseUnsigned(body: string): Option<real> {
    var e := IndexOfExponent(body);
    var m := ParseMantissa(body[..e]);
    var x := if e < |body| then ParseExponent(body[e + 1..]) else Some(0);
    if m.None? || x.None? then None else Some(Scale(m.value, x.value))
  }

  /** Python's `float(s)` restricted to ASCII decimal notation: surrounding
      whitespace, an optional sign, a mantissa such as `12`, `12.5`, `.5` or
      `12.`, and an optional exponent such as `e3` or `E-6`. */
  function ParseFloat(s: string): (r: Option<real>)
    ensures r.Some? ==> !IsBlank(s)
  {
    var (neg, body) := SplitSign(Strip(s));
    match ParseUnsigned(body)
    case None => None
    case Some(v) => Some(if neg then -v else v)
  }

  // ---------------------------------------------------------------------
  // What the parsers accept

  /** A run of digits reads as its value, through `int(...)`... */
  lemma ParseIntDigits(d: string)
    requires |d| > 0 && AllDigits(d)
    ensures ParseInt(d) == Some(DigitsValue(d) as int)
  {
    assert !IsSpace(d[0]) && !IsSpace(d[|d| - 1]);
  }

  /** ...and as an unsigned decimal number. */
  lemma ParseUnsignedDigits(d: string)
    requires |d| > 0 && AllDigits(d)
    ensures ParseUnsigned(d) == Some(DigitsValue(d) as real)
  {
    assert forall j :: 0 <= j < |d| ==> d[j] != 'e' && d[j] != 'E';
    assert IndexOfExponent(d) == |d|;
    assert d[..|d|] == d;
    ParseMantissaDigits(d);
  }

  lemma ParseMantissaDigits(d: string)
    requires |d| > 0 && AllDigits(d)
    ensures ParseMantissa(d) == Some(DigitsValue(d) as real)
  {
    assert forall j :: 0 <= j < |d| ==> d[j] != '.';
    var i := IndexOf(d, '.');
    assert i == |d|;
    assert d[..i] == d;
  }

  /** Digits followed by an exponent, such as `10e3`. */
  lemma ParseUnsignedExponent(d: string, x: nat)
    requires |d| > 0 && AllDigits(d)
    ensures ParseUnsigned(d + "e" + NatText(x)) == Some(Scale(DigitsValue(d) as real, x))
  {
    var xs := NatText(x);
    var s := d + "e" + xs;
    assert forall j :: 0 <= j < |d| ==> s[j] == d[j];
    assert s[|d|] == 'e';
    var e := IndexOfExponent(s);
    assert e == |d| by {
      assert forall j :: 0 <= j < |d| ==> IsDigit(s[j]);
    }
    assert s[..e] == d;
    assert s[e + 1..] == xs;
    ParseMantissaDigits(d);
    ParseExponentDigits(xs);
  }

  lemma ParseExponentDigits(xs: string)
    requires |xs| > 0 && AllDigits(xs)
    ensures ParseExponent(xs) == Some(DigitsValue(xs) as int)
  {
    assert IsDigit(xs[0]);
    assert SplitSign(xs) == (false, xs);
  }

  /** Text with no surrounding whitespace and no sign goes straight to
      the unsigned reader. */
  lemma ParseFloatUnsigned(s: string)
    requires |s| > 0 && IsDigit(s[0]) && IsDigit(s[|s| - 1])
    ensures ParseFloat(s) == ParseUnsigned(s)
  {
    assert Strip(s) == s;
    assert SplitSign(s) == (false, s);
  }

  /** `float` reads back the decimal text of a natural number... */
  lemma ParseFloatDigits(d: string)
    requires |d| > 0 && AllDigits(d)
    ensures ParseFloat(d) == Some(DigitsValue(d) as real)
  {
    ParseFloatUnsigned(d);
    ParseUnsignedDigits(d);
  }

  /** ...and of every integer. */
  lemma ParseFloatIntText(i: int)
    ensures ParseFloat(IntText(i)) == Some(i as real)
  {
    if i >= 0 {
      ParseFloatDigits(NatText(i));
    } else {
      var d := NatText(-i);
      var s := "-" + d;
      assert s == IntText(i);
      assert !IsSpace(s[0]) && !IsSpace(s[|s| - 1]);
      assert Strip(s) == s;
      assert s[1..] == d;
      assert SplitSign(s) == (true, d);
      ParseUnsignedDigits(d);
      assert DigitsValue(d) == -i;
    }
  }

  /** `float` reads digits followed by a decimal exponent, such as `10e3`. */
  lemma ParseFloatExponent(d: string, x: nat)
    requires |d| > 0 && AllDigits(d)
    ensures ParseFloat(d + "e" + NatText(x)) == Some(Scale(DigitsValue(d) as real, x))
  {
    var s := d + "e" + NatText(x);
    assert s[0] == d[0] && s[|s| - 1] == NatText(x)[|NatText(x)| - 1];
    ParseFloatUnsigned(s);
    ParseUnsignedExponent(d, x);
  }

  /** `float` reads digits, a decimal point and more digits, such as `12.5`. */
  lemma ParseFloatDecimal(ip: string, fp: string)
    requires |ip| > 0 && AllDigits(ip) && |fp| > 0 && AllDigits(fp)
    ensures ParseFloat(ip + "." + fp) == Some(Decimal(ip, fp))
  {
    var s := ip + "." + fp;
    assert s[0] == ip[0] && s[|s| - 1] == fp[|fp| - 1];
    ParseFloatUnsigned(s);
    ParseUnsignedPlain(s);
    ParseMantissaDecimal(ip, fp);
  }

  /** Without an exponent marker the whole text is the mantissa. */
  lemma ParseUnsignedPlain(s: string)
    requires forall j :: 0 <= j < |s| ==> s[j] != 'e' && s[j] != 'E'
    ensures ParseUnsigned(s) == ParseMantissa(s)
  {
    assert IndexOfExponent(s) == |s|;
    assert s[..|s|] == s;
  }

  lemma ParseMantissaDecimal(ip: string, fp: string)
    requires AllDigits(ip) && AllDigits(fp) && |ip| + |fp| > 0
    ensures ParseMantissa(ip + "." + fp) == Some(Decimal(ip, fp))
  {
    var s := ip + "." + fp;
    assert forall j :: 0 <= j < |ip| ==> s[j] != '.';
    assert s[|ip|] == '.';
    assert IndexOf(s, '.') == |ip|;
    assert s[..|ip|] == ip;
    assert s[|ip| + 1..] == fp;
  }

  /** A comma anywhere in the text makes `float(...)` fail. */
  lemma ParseFloatRejectsComma(s: string)
    requires ',' in s
    ensures ParseFloat(s) == None
  {
    var t := Strip(s);
    var j :| 0 <= j < |s| && s[j] == ',';
    StripKeeps(s, j);
    var (neg, body) := SplitSign(t);
    assert ',' in body;
    UnsignedRejectsComma(body);
  }

  lemma UnsignedRejectsComma(body: string)
    requires ',' in body
    ensures ParseUnsigned(body) == None
  {
    var e := IndexOfExponent(body);
    var j :| 0 <= j < |body| && body[j] == ',';
    if j < e {
      var m := body[..e];
      assert m[j] == ',';
      MantissaRejectsComma(m);
    } else {
      assert j > e;
      var x := body[e + 1..];
      assert x[j - e - 1] == ',';
      ExponentRejectsComma(x);
    }
  }

  lemma MantissaRejectsComma(m: string)
    requires ',' in m
    ensures ParseMantissa(m) == None
  {
    var j :| 0 <= j < |m| && m[j] == ',';
    var d := IndexOf(m, '.');
    if j < d {
      assert m[..d][j] == ',';
      assert !AllDigits(m[..d]);
    } else {
      assert j > d;
      assert m[d + 1..][j - d - 1] == ',';
      assert !AllDigits(m[d + 1..]);
    }
  }

  lemma ExponentRejectsComma(x: string)
    requires ',' in x
    ensures ParseExponent(x) == None
  {
    var (xneg, xbody) := SplitSign(x);
    assert ',' in xbody;
    assert !AllDigits(xbody);
  }

  /** Text that starts with '#' is not a number, so a reply that `float`
      accepts is never taken for a block header. */
  lemma ParseFloatRejectsHash(s: string)
    requires |s| > 0 && s[0] == '#'
    ensures ParseFloat(s) == None
  {
    var t := Strip(s);
    StripFirst(s);
    assert t[0] == '#';
    assert SplitSign(t) == (false, t);
    UnsignedRejectsHash(t);
  }

  lemma UnsignedRejectsHash(body: string)
    requires |body| > 0 && body[0] == '#'
    ensures ParseUnsigned(body) == None
  {
    var e := IndexOfExponent(body);
    assert e > 0;
    var m := body[..e];
    assert m[0] == '#';
    var d := IndexOf(m, '.');
    assert d > 0;
    assert m[..d][0] == '#';
    assert !AllDigits(m[..d]);
  }
}

=== FILE: trace.dfy ===
/** Decoding the reply to `:TRAC:DATA? TRACE1` (main.py:1436-1471): the
    reply is either a definite-length arbitrary block (section 8.7.9 of
    IEEE 488.2: '#', one digit N, an N-digit byte count, then that many
    characters of payload) or a bare comma-separated list; the payload's
    non-blank pieces are the amplitudes, and the frequency axis is rebuilt
    from the queried start and stop frequencies. */
module TraceDecoder {
  import opened Results
  import opened Text

  /** One sweep: frequency axis in Hz, amplitudes in dBm, and whether the
      number of amplitudes differed from the queried point count (which
      the source only reports as a warning). */
  datatype Trace = Trace(freqs: seq<real>, vals: seq<real>, countMismatch: bool)

  /** The data region of a trace reply. With a leading '#', the digit after
      it gives the width of the byte count, and exactly that many
      characters after the header are taken (fewer if the reply is
      shorter). Without it, the whole stripped reply is the data. */
  function DataRegion(raw: string): (r: Result<string>)
    ensures r.Ok? ==> |r.value| <= |raw|
    ensures |Strip(raw)| == 0 || Strip(raw)[0] != '#' ==> r == Ok(Strip(raw))
  {
    var t := Strip(raw);
    if |t| > 0 && t[0] == '#' then BlockRegion(t) else Ok(t)
  }

  /** The data region of a stripped reply that starts with '#'. */
  function BlockRegion(t: string): (r: Result<string>)
    ensures r.Ok? ==> |r.value| <= |t|
  {
    if |t| < 2 then Err(IndexError)
    else
      match ParseInt([t[1]])
      case None => Err(ValueError)
      case Some(n) => BlockData(t, n)
  }

  /** The byte count in the `n` characters after the header's width digit,
      and that many characters of data after it. */
  function BlockData(t: string, n: int): (r: Result<string>)
    ensures r.Ok? ==> |r.value| <= |t|
  {
    DataAfter(t, 2 + n, ParseInt(PySlice(t, 2, 2 + n)))
  }

  /** The `dataLen` characters from position `start` of `t`, if the byte
      count parsed. */
  function DataAfter(t: string, start: int, dataLen: Option<int>): (r: Result<string>)
    ensures r.Ok? ==> |r.value| <= |t|
  {
    match dataLen
    case None => Err(ValueError)
    case Some(len) => Ok(PySlice(t, start, start + len))
  }

  /** The pieces that survive `[p for p in parts if p.strip()]`. */
  function NonBlank(parts: seq<string>): (r: seq<string>)
    ensures |r| <= |parts|
    ensures forall i :: 0 <= i < |r| ==> !IsBlank(r[i])
  {
    if parts == [] then []
    else (if IsBlank(parts[0]) then [] else [parts[0]]) + NonBlank(parts[1..])
  }

  /** The amplitude texts of a data region: its comma-separated pieces
      that are not blank, in order. */
  function Tokens(region: string): seq<string> {
    NonBlank(Split(region, ','))
  }

  /** `float` applied to every token; one unparsable token fails the lot
      (see `ParseValuesSpec`). */
  function ParseValues(tokens: seq<string>): (r: Option<seq<real>>)
    ensures r.Some? ==> |r.value| == |tokens|
  {
    AllPresent(ParsedTokens(tokens))
  }

  /** `float` of each token, kept as an option. */
  function ParsedTokens(tokens: seq<string>): (r: seq<Option<real>>)
    ensures |r| == |tokens|
  {
    if tokens == [] then [] else [ParseFloat(tokens[0])] + ParsedTokens(tokens[1..])
  }

  lemma {:induction false} ParsedTokensAt(tokens: seq<string>, i: nat)
    requires i < |tokens|
    ensures ParsedTokens(tokens)[i] == ParseFloat(tokens[i])
    decreases i
  {
    if i > 0 {
      ParsedTokensAt(tokens[1..], i - 1);
      assert tokens[1..][i - 1] == tokens[i];
    }
  }

  /** The values when every one is present; the first absent one fails
      the lot. */
  function AllPresent(os: seq<Option<real>>): (r: Option<seq<real>>)
    ensures r.Some? <==> forall i :: 0 <= i < |os| ==> os[i].Some?
    ensures r.Some? ==> |r.value| == |os| && forall i :: 0 <= i < |os| ==> r.value[i] == os[i].value
  {
    if os == [] then Some([])
    else
      var rest := AllPresent(os[1..]);
      assert forall i :: 1 <= i < |os| ==> os[i] == os[1..][i - 1];
      if os[0].None? || rest.None? then None else Some([os[0].value] + rest.value)
  }

  /** The values parse exactly when every token does, one value per
      token, in order. */
  lemma ParseValuesSpec(tokens: seq<string>)
    ensures ParseValues(tokens).Some? <==> forall i :: 0 <= i < |tokens| ==> ParseFloat(tokens[i]).Some?
    ensures ParseValues(tokens).Some? ==>
      forall i :: 0 <= i < |tokens| ==> ParseValues(tokens).value[i] == ParseFloat(tokens[i]).value
  {
    forall i | 0 <= i < |tokens| ensures ParsedTokens(tokens)[i] == ParseFloat(tokens[i]) {
      ParsedTokensAt(tokens, i);
    }
  }

  /** `numpy.linspace(start, stop, num=n)`: `start + i * step` with the
      last point set to `stop` itself. */
  function Linspace(start: real, stop: real, n: nat): (xs: seq<real>)
    ensures |xs| == n
    ensures n >= 1 ==> xs[0] == start
    ensures n >= 2 ==> xs[n - 1] == stop
  {
    if n <= 1 then seq(n, i => start)
    else
      var step := (stop - start) / ((n - 1) as real);
      seq(n, i requires 0 <= i < n => if i == n - 1 then stop else start + (i as real) * step)
  }

  /** Consecutive points of the axis are one step apart, so the axis
      increases when `start < stop`. */
  lemma LinspaceSpacing(start: real, stop: real, n: nat)
    requires n >= 2
    ensures var xs := Linspace(start, stop, n);
      forall i :: 0 <= i < n - 1 ==> xs[i + 1] - xs[i] == (stop - start) / ((n - 1) as real)
    ensures var xs := Linspace(start, stop, n);
      start < stop ==> forall i :: 0 <= i < n - 1 ==> xs[i] < xs[i + 1]
  {
    var xs := Linspace(start, stop, n);
    var step := (stop - start) / ((n - 1) as real);
    assert ((n - 1) as real) * step == stop - start;
    forall i | 0 <= i < n - 1 ensures xs[i + 1] - xs[i] == step {
      assert xs[i] == start + (i as real) * step;
      assert ((i + 1) as real) * step == (i as real) * step + step;
      if i + 1 < n - 1 {
        assert xs[i + 1] == start + ((i + 1) as real) * step;
      }
    }
    assert start < stop ==> step > 0.0;
  }

  /** The trace carried by a reply, given the queried point count and
      start and stop frequencies. */
  function DecodeTrace(raw: string, points: int, fStart: real, fStop: real): (r: Result<Trace>)
    ensures r.Ok? <==> DataRegion(raw).Ok? && ParseValues(Tokens(DataRegion(raw).value)).Some?
    ensures r.Ok? ==> r.value.vals == ParseValues(Tokens(DataRegion(raw).value)).value
    ensures r.Ok? ==> |r.value.freqs| == |r.value.vals|
    ensures r.Ok? ==> r.value.freqs == Linspace(fStart, fStop, |r.value.vals|)
    ensures r.Ok? ==> r.value.countMismatch == (|r.value.vals| != points)
  {
    match DataRegion(raw)
    case Err(e) => Err(e)
    case Ok(region) =>
      match ParseValues(Tokens(region))
      case None => Err(ValueError)
      case Some(vals) => Ok(Trace(Linspace(fStart, fStop, |vals|), vals, |vals| != points))
  }

  // ---------------------------------------------------------------------
  // The header

  /** A definite-length arbitrary block holding `payload`. */
  function EncodeBlock(payload: string): (b: string)
    requires |payload| < Pow10(9)
    ensures |b| > 2 && b[0] == '#'
  {
    var count := NatText(|payload|);
    NatTextLength(|payload|, 9);
    "#" + [DigitChar(|count|)] + count + payload
  }

  lemma ParseIntDigit(n: nat)
    requires n < 10
    ensures ParseInt([DigitChar(n)]) == Some(n)
  {
    var d := [DigitChar(n)];
    assert d[..0] == [];
    ParseIntDigits(d);
  }

  /** After '#' and the digit N, the next N characters are the byte count
      and exactly that many characters follow as the data, fewer only when
      the reply ends first. */
  lemma DataRegionOfBlock(raw: string, n: nat, count: string, rest: string)
    requires 1 <= n <= 9 && |count| == n
    requires Strip(raw) == "#" + [DigitChar(n)] + count + rest
    requires ParseInt(count).Some? && ParseInt(count).value >= 0
    ensures var len := ParseInt(count).value;
      DataRegion(raw) == Ok(if len <= |rest| then rest[..len] else rest)
  {
    var t := Strip(raw);
    SliceParts("#" + [DigitChar(n)], count, rest);
    BlockRegionOf(t, n, count);
    DataAfterOf(t, 2 + n, ParseInt(count), ParseInt(count).value, rest);
  }

  /** A block's data region is read with the byte count found in the N
      characters after the digit N. */
  lemma BlockRegionOf(t: string, n: nat, count: string)
    requires n <= 9 && 2 + n <= |t| && t[1] == DigitChar(n) && t[2..2 + n] == count
    ensures BlockRegion(t) == DataAfter(t, 2 + n, ParseInt(count))
  {
    BlockRegionDigit(t, n);
    assert PySlice(t, 2, 2 + n) == count;
  }

  /** The digit N after '#' is the width of the byte count. */
  lemma BlockRegionDigit(t: string, n: nat)
    requires n <= 9 && 2 <= |t| && t[1] == DigitChar(n)
    ensures BlockRegion(t) == BlockData(t, n)
  {
    ParseIntDigit(n);
    assert [t[1]] == [DigitChar(n)];
  }

  /** With a byte count of `len`, the data is `len` characters of what
      follows the header, or all of it when fewer remain. */
  lemma DataAfterOf(t: string, k: nat, dataLen: Option<int>, len: nat, rest: string)
    requires k <= |t| && t[k..] == rest && dataLen == Some(len)
    ensures DataAfter(t, k, dataLen) == Ok(if len <= |rest| then rest[..len] else rest)
  {
    SliceOfSuffix(t, k, len, rest);
  }

  /** At most `len` characters from position `k`, where the text from `k`
      on is `rest`. */
  lemma SliceOfSuffix(t: string, k: nat, len: nat, rest: string)
    requires k <= |t| && t[k..] == rest
    ensures PySlice(t, k, k + len) == if len <= |rest| then rest[..len] else rest
  {
    if k + len <= |t| {
      assert t[k..k + len] == t[k..][..len];
    }
  }

  /** The middle and the end of a three-part concatenation. */
  lemma SliceParts(a: string, b: string, c: string)
    ensures (a + b + c)[|a|..|a| + |b|] == b
    ensures (a + b + c)[|a| + |b|..] == c
  {
    var t := a + b + c;
    assert forall i :: 0 <= i < |b| ==> t[|a| + i] == b[i];
    assert forall i :: 0 <= i < |c| ==> t[|a| + |b| + i] == c[i];
  }

  /** A '#' with nothing after it, a non-digit or a zero width digit, or a
      byte count that is not a number, is an error. */
  lemma DataRegionErrors(raw: string)
    requires |Strip(raw)| >= 1 && Strip(raw)[0] == '#'
    ensures |Strip(raw)| == 1 ==> DataRegion(raw) == Err(IndexError)
    ensures |Strip(raw)| >= 2 && !IsDigit(Strip(raw)[1]) ==> DataRegion(raw) == Err(ValueError)
    ensures |Strip(raw)| >= 2 && Strip(raw)[1] == '0' ==> DataRegion(raw) == Err(ValueError)
    ensures |Strip(raw)| >= 2 && IsDigit(Strip(raw)[1])
            && ParseInt(PySlice(Strip(raw), 2, 2 + DigitValue(Strip(raw)[1]))).None?
            ==> DataRegion(raw) == Err(ValueError)
  {
    var t := Strip(raw);
    if |t| >= 2 {
      var c := [t[1]];
      if !IsDigit(t[1]) {
        var (neg, body) := SplitSign(Strip(c));
        assert |body| > 0 ==> body == c;
        assert ParseInt(c).None?;
      } else {
        ParseIntDigit(DigitValue(t[1]));
        assert DigitChar(DigitValue(t[1])) == t[1];
        if t[1] == '0' {
          assert PySlice(t, 2, 2) == [];
          assert ParseInt([]).None?;
        }
      }
    }
  }

  /** A payload framed as a block, with any line terminator after it,
      decodes back to the payload. */
  lemma HeaderRoundTrip(payload: string, terminator: string)
    requires |payload| < Pow10(9)
    requires payload == [] || !IsSpace(payload[|payload| - 1])
    requires IsBlank(terminator)
    ensures DataRegion(EncodeBlock(payload) + terminator) == Ok(payload)
  {
    var count := NatText(|payload|);
    NatTextLength(|payload|, 9);
    var b := EncodeBlock(payload);
    assert b[|b| - 1] == if payload == [] then count[|count| - 1] else payload[|payload| - 1];
    assert IsDigit(count[|count| - 1]);
    StripBlankSuffix(b, terminator);
    ParseIntDigits(count);
    assert ParseInt(count) == Some(|payload|);
    assert Strip(b + terminator) == "#" + [DigitChar(|count|)] + count + payload;
    DataRegionOfBlock(b + terminator, |count|, count, payload);
    assert payload[..|payload|] == payload;
  }

  // ---------------------------------------------------------------------
  // Tokens and values

  lemma {:induction false} NonBlankKeepsAll(parts: seq<string>)
    requires forall i :: 0 <= i < |parts| ==> !IsBlank(parts[i])
    ensures NonBlank(parts) == parts
  {
    if parts != [] {
      NonBlankKeepsAll(parts[1..]);
    }
  }

  /** Blank pieces are dropped one at a time: a single piece survives
      exactly when it is not blank ... */
  lemma NonBlankOne(p: string)
    ensures NonBlank([p]) == if IsBlank(p) then [] else [p]
  {
    assert [p][1..] == [];
  }

  /** ... and filtering a concatenation filters each part, keeping the
      order of the pieces. */
  lemma {:induction false} NonBlankAppend(a: seq<string>, b: seq<string>)
    ensures NonBlank(a + b) == NonBlank(a) + NonBlank(b)
    decreases |a|
  {
    if a == [] {
      assert a + b == b;
    } else {
      assert (a + b)[0] == a[0];
      assert (a + b)[1..] == a[1..] + b;
      NonBlankAppend(a[1..], b);
    }
  }

  /** Comma-joined non-blank pieces without commas split back into those
      pieces; an empty data region has no tokens. */
  lemma TokensOfJoin(pieces: seq<string>)
    requires |pieces| >= 1
    requires forall i :: 0 <= i < |pieces| ==> ',' !in pieces[i] && !IsBlank(pieces[i])
    ensures Tokens(Join(pieces, ',')) == pieces
  {
    SplitJoin(pieces, ',');
    NonBlankKeepsAll(pieces);
  }

  /** An empty data region carries no values. */
  lemma TokensOfEmpty()
    ensures Tokens("") == []
  {
    assert Split("", ',') == [""];
    assert IsBlank("");
  }

  /** Amplitude texts that read back as `vals`: one piece per value, each
      accepted by `float` with that value (so no piece is blank or holds a
      comma; see `ParseFloatRejectsComma`). */
  predicate Encodes(pieces: seq<string>, vals: seq<real>) {
    |pieces| == |vals| && forall i :: 0 <= i < |pieces| ==> ParseFloat(pieces[i]) == Some(vals[i])
  }

  /** The pieces joined by commas, as an analyser lists its amplitudes;
      no pieces, no text. */
  function ValuesText(pieces: seq<string>): string {
    if pieces == [] then "" else Join(pieces, ',')
  }

  /** Text with no whitespace at either end. */
  predicate Unpadded(s: string) {
    s == [] || (!IsSpace(s[0]) && !IsSpace(s[|s| - 1]))
  }

  lemma {:induction false} JoinEnds(parts: seq<string>, sep: char)
    requires |parts| >= 1 && |parts[|parts| - 1]| >= 1
    ensures |Join(parts, sep)| >= 1
    ensures var j := Join(parts, sep); var l := parts[|parts| - 1];
      j[|j| - 1] == l[|l| - 1]
  {
    if |parts| > 1 {
      JoinEnds(parts[1..], sep);
    }
  }

  lemma JoinStarts(parts: seq<string>, sep: char)
    requires |parts| >= 1 && |parts[0]| >= 1
    ensures |Join(parts, sep)| >= 1 && Join(parts, sep)[0] == parts[0][0]
  {
  }

  /** The values text reads back as the values. */
  lemma ValuesRoundTrip(pieces: seq<string>, vals: seq<real>)
    requires Encodes(pieces, vals)
    ensures ParseValues(Tokens(ValuesText(pieces))) == Some(vals)
  {
    if pieces == [] {
      TokensOfEmpty();
    } else {
      forall i | 0 <= i < |pieces| ensures ',' !in pieces[i] && !IsBlank(pieces[i]) {
        if ',' in pieces[i] {
          ParseFloatRejectsComma(pieces[i]);
        }
      }
      TokensOfJoin(pieces);
    }
    ParseValuesOf(pieces, vals);
  }

  /** Tokens that each read as the matching value read as the values. */
  lemma ParseValuesOf(tokens: seq<string>, vals: seq<real>)
    requires |tokens| == |vals| && forall i :: 0 <= i < |tokens| ==> ParseFloat(tokens[i]) == Some(vals[i])
    ensures ParseValues(tokens) == Some(vals)
  {
    ParseValuesSpec(tokens);
    var r := ParseValues(tokens);
    assert r.Some?;
    assert r.value == vals;
  }

  /** Amplitudes framed as a block decode back to themselves, on an axis
      with one frequency per decoded value; a count other than the
      queried one is flagged, never fatal. */
  lemma TraceRoundTrip(pieces: seq<string>, vals: seq<real>, terminator: string,
                       points: int, fStart: real, fStop: real)
    requires Encodes(pieces, vals)
    requires |ValuesText(pieces)| < Pow10(9)
    requires ValuesText(pieces) == [] || !IsSpace(ValuesText(pieces)[|ValuesText(pieces)| - 1])
    requires IsBlank(terminator)
    ensures DecodeTrace(EncodeBlock(ValuesText(pieces)) + terminator, points, fStart, fStop)
         == Ok(Trace(Linspace(fStart, fStop, |vals|), vals, |vals| != points))
  {
    HeaderRoundTrip(ValuesText(pieces), terminator);
    ValuesRoundTrip(pieces, vals);
  }

  /** Unpadded values text does not start with '#' (no number does), so
      as a bare reply it is its own data region. */
  lemma BareRegion(pieces: seq<string>, vals: seq<real>)
    requires Encodes(pieces, vals) && Unpadded(ValuesText(pieces))
    ensures DataRegion(ValuesText(pieces)) == Ok(ValuesText(pieces))
  {
    var v := ValuesText(pieces);
    if v != [] {
      assert !IsBlank(pieces[0]);
      JoinStarts(pieces, ',');
      if pieces[0][0] == '#' {
        ParseFloatRejectsHash(pieces[0]);
      }
      assert v[0] != '#';
    }
  }

  /** Amplitudes sent bare decode back to themselves. */
  lemma BareRoundTrip(pieces: seq<string>, vals: seq<real>, points: int, fStart: real, fStop: real)
    requires Encodes(pieces, vals) && Unpadded(ValuesText(pieces))
    ensures DecodeTrace(ValuesText(pieces), points, fStart, fStop)
         == Ok(Trace(Linspace(fStart, fStop, |vals|), vals, |vals| != points))
  {
    BareRegion(pieces, vals);
    ValuesRoundTrip(pieces, vals);
  }

  /** The same values sent bare, without a block header, decode to the
      same trace. */
  lemma BareAgreesWithBlock(pieces: seq<string>, vals: seq<real>, points: int, fStart: real, fStop: real)
    requires Encodes(pieces, vals) && Unpadded(ValuesText(pieces))
    requires |ValuesText(pieces)| < Pow10(9)
    ensures DecodeTrace(ValuesText(pieces), points, fStart, fStop)
         == DecodeTrace(EncodeBlock(ValuesText(pieces)), points, fStart, fStop)
  {
    var v := ValuesText(pieces);
    BareRoundTrip(pieces, vals, points, fStart, fStop);
    TraceRoundTrip(pieces, vals, "", points, fStart, fStop);
    assert EncodeBlock(v) + "" == EncodeBlock(v);
  }

  // ---------------------------------------------------------------------
  // Integer amplitudes

  /** The decimal texts of some integers. */
  function IntPieces(xs: seq<int>): seq<string> {
    seq(|xs|, i requires 0 <= i < |xs| => IntText(xs[i]))
  }

  /** The integers as amplitudes. */
  function Reals(xs: seq<int>): seq<real> {
    seq(|xs|, i requires 0 <= i < |xs| => xs[i] as real)
  }

  /** Integers written in decimal are amplitude texts for their values,
      and their comma-joined list has no whitespace at either end. */
  lemma IntegerAmplitudes(xs: seq<int>)
    ensures Encodes(IntPieces(xs), Reals(xs))
    ensures Unpadded(ValuesText(IntPieces(xs)))
  {
    var pieces := IntPieces(xs);
    forall i | 0 <= i < |xs| ensures ParseFloat(pieces[i]) == Some(Reals(xs)[i]) {
      ParseFloatIntText(xs[i]);
    }
    if xs != [] {
      JoinStarts(pieces, ',');
      JoinEnds(pieces, ',');
    }
  }

  /** Integer amplitudes framed as a block decode back to themselves. */
  lemma IntegerTraceRoundTrip(xs: seq<int>, terminator: string, points: int, fStart: real, fStop: real)
    requires |ValuesText(IntPieces(xs))| < Pow10(9) && IsBlank(terminator)
    ensures DecodeTrace(EncodeBlock(ValuesText(IntPieces(xs))) + terminator, points, fStart, fStop)
         == Ok(Trace(Linspace(fStart, fStop, |xs|), Reals(xs), |xs| != points))
  {
    IntegerAmplitudes(xs);
    TraceRoundTrip(IntPieces(xs), Reals(xs), terminator, points, fStart, fStop);
  }
}
